=== FILE: README.md ===
# Design records and their search, in Dafny

This project models the logic of two small Express apps that keep a JSON data file.

**server.js** keeps a flat list of records of three types:
- Categories;
- Components, each with a list of versions;
- Customer Option Sets.

Components and Customer Option Sets point at their Category through `category_id`. The model covers three parts of server.js:
- `filterData`, the search behind `GET /search`. It walks the records in order. It emits each qualifying Category with its matching children nested under it, and may emit matching Components and Customer Option Sets at top level.
- The form-row parsers that turn a submitted form into record fields.
- What the add, update and delete routes do to the list of records.

**app.js** keeps a plain list of items. Its `/add`, `/update`, `/delete` and `/move` routes are modelled as sequence operations.

Everything is a pure function over immutable datatypes:
- The data file is a `seq<Record>`.
- A query is a `map<string, string>` of URL parameters.
- A submitted form is a `Form` holding plain fields plus row cells keyed by column and row number.

A route that would redirect with an error returns `Failure(error)`. In that case nothing is written.

The model follows the code as written, including these quirks:
- A parameter takes part in matching only when it is a non-empty string (JavaScript truthiness). The version-key test and the category-only rule look at which keys are present instead.
- A query with no non-empty value and no `categoryName` or `categoryStatus` key finds nothing. The empty query returns `[]`, not every record.
- When `categoryName` or `categoryStatus` is present as a key and no child-level key is, every Category is returned, matching or not, with empty child lists.
- An admitted Component always has its version list replaced by the matching versions. A Component admitted on its own criteria alone therefore comes back with no versions, not with its full list.
- `keyword` is not a version key, but `searchText` is.
- The top-level de-duplication looks only at Categories emitted earlier. A Component placed before its Category is reported twice.
- `parseCustomerOptions` reads `config_pseudocode_i` without its prefix.
- delete-category succeeds whenever anything was removed, even if only orphans named the id.
- The app.js item id is `'item' + (length + 1 + last four clock digits)`. The number meets a string, so JavaScript concatenates the two. Such an id can repeat one already in the list.

Modules:
- `Wrappers`, `Seqs`, `Text`: options and results, sequence helpers, and string primitives (`toLowerCase`, `includes`, `trim`, `split`, `join`, number to decimal text).
- `Records`: the data file's records.
- `Forms`: form bodies and the row parsers.
- `Scans`: the generic `forEach` + `push` loop and what holds of any such loop.
- `Search`, `SearchFacts`: `filterData` and its properties.
- `Handlers`, `HandlerFacts`: the server.js POST routes and how they relate.
- `Items`, `ItemFacts`: the app.js item routes and how they relate.

## Model

| member | source | states |
|---|---|---|
| `Text.Lower` | jsoneditor/server.js:158 | `toLowerCase` keeps the length, leaves no upper-case ASCII letter, keeps every other character and shifts each upper-case letter to its lower-case partner |
| `Text.LowerIdempotent` | jsoneditor/server.js:158 | lower-casing an already lower-cased string changes nothing |
| `Text.LowerConcat` | jsoneditor/server.js:158 | lower-casing a concatenation lower-cases each part, so case folding never crosses a part boundary |
| `Text.Contains` | jsoneditor/server.js:158 | `includes` is true exactly when the needle occurs at some position of the haystack |
| `Text.TrimStart` | jsoneditor/server.js:80 | the result is a suffix with no leading whitespace, everything removed before it is whitespace, and it is the input itself when the input has none |
| `Text.TrimEnd` | jsoneditor/server.js:80 | the result is a prefix with no trailing whitespace, everything removed after it is whitespace, and it is the input itself when the input has none |
| `Text.Trim` | jsoneditor/server.js:80 | `trim` returns an infix of the input with no whitespace at either end, everything cut off on both sides is whitespace, and an already trimmed string is unchanged |
| `Text.TrimBothEnds` | jsoneditor/server.js:80 | cutting trailing whitespace after leading whitespace leaves no whitespace at either end, and a string with none is left as it is |
| `Text.TrimmedInfix` | jsoneditor/server.js:80 | what `trim` keeps is one contiguous piece of the input, starting where the leading whitespace ends |
| `Text.TrimmedOutside` | jsoneditor/server.js:80 | everything `trim` cuts off, before or after the kept piece, is whitespace |
| `Text.Split` | jsoneditor/server.js:80 | `split(',')` returns at least one piece, even for `""`, and no piece holds the separator |
| `Text.JoinSplit` | jsoneditor/server.js:80 | joining the pieces of a split with the separator rebuilds the string |
| `Text.SplitJoin` | jsoneditor/server.js:80 | splitting a join of separator-free pieces gives the pieces back |
| `Text.DecimalString` | jsoneditor/server.js:540 | `toString()` of a number is a non-empty digit string with no leading zero |
| `Text.DecimalStringDigit` | jsoneditor/app.js:53 | the decimal string of `10a + d` is that of `a` followed by the digit `d` |
| `Text.DecimalRoundTrip` | jsoneditor/app.js:53 | reading back the decimal digits of a number gives the number |
| `Text.TakeLast` | jsoneditor/server.js:540 | `slice(-k)` keeps the last `k` characters, or the whole string when it is shorter |
| `Seqs.Filter` | jsoneditor/server.js:80 | `filter` keeps only elements that pass, and keeps every element that passes |
| `Seqs.FilterConcat` | jsoneditor/server.js:287 | filtering distributes over concatenation |
| `Seqs.FilterSingle` | jsoneditor/server.js:287 | a one-element list keeps its element exactly when it passes the filter |
| `Seqs.FilterKeepsAll` | jsoneditor/server.js:80 | a filter every element passes changes nothing |
| `Seqs.FilterNone` | jsoneditor/server.js:774 | a filter no element passes gives the empty list |
| `Seqs.FilterFilter` | jsoneditor/server.js:751-757 | two filters in a row equal one filter by the conjunction |
| `Seqs.FilterShrinks` | jsoneditor/server.js:776 | a filter shortens the list exactly when some element fails it |
| `Seqs.Any` | jsoneditor/server.js:259 | `some` is true exactly when some element passes |
| `Seqs.Map` | jsoneditor/server.js:80 | `map` keeps the length and applies the function at each position |
| `Seqs.MapConcat` | jsoneditor/server.js:287-288 | mapping a concatenation maps each part, so images keep the order of their sources |
| `Seqs.MapSingle` | jsoneditor/server.js:288 | a one-element list maps to the image of its element |
| `Seqs.FirstWhere` | jsoneditor/server.js:567 | `find`/`findIndex` give none exactly when nothing passes, else the first position that passes |
| `Forms.FieldOr` | jsoneditor/server.js:542 | `body[k] \|\| fallback` is the field when it is non-empty and the fallback when the field is missing or empty |
| `Forms.RowCount` | jsoneditor/server.js:87 | the row scan counts consecutive present rows from the start and stops at the first blank row |
| `Forms.RowsShrink` | jsoneditor/server.js:87 | a present row holds a non-empty cell, so fewer cells remain from the next row on: the row scan ends |
| `Forms.PresentRow1` | jsoneditor/server.js:101 | a present one-column row has a non-empty cell in that column |
| `Forms.PresentRow2` | jsoneditor/server.js:87 | a present two-column row has a non-empty cell in one of its columns |
| `Forms.PresentRow4` | jsoneditor/server.js:116 | a present four-column row has a non-empty cell in one of its columns |
| `Forms.RowCountIs` | jsoneditor/server.js:87 | when rows `0 .. n-1` are present and row `n` is blank, the scan stops after exactly `n` rows |
| `Forms.ParseKvp` | jsoneditor/server.js:84-95 | each pair is the key and value cells of its row, none is entirely blank, and the row after the last is blank |
| `Forms.ParseKvpExact` | jsoneditor/server.js:84-95 | `parseKVP` returns a list exactly when the form holds it row by row, followed by a blank row, and no pair is blank |
| `Forms.ParseFlagLinks` | jsoneditor/server.js:98-108 | each link is its row's cell and is non-empty, and the row after the last is blank |
| `Forms.ParseFlagLinksExact` | jsoneditor/server.js:98-108 | `parseFlagLinks` returns a list exactly when the form holds it followed by a blank row, and no link is empty |
| `Forms.ParseDeploymentLocations` | jsoneditor/server.js:112-126 | each location is its row's four cells with some part non-empty, and the next row is blank in all four columns |
| `Forms.ParseDeploymentLocationsExact` | jsoneditor/server.js:112-126 | `parseDeploymentLocations` returns a list exactly when the form holds it followed by a blank row, and every location has a non-empty part |
| `Forms.ParseCustomerOptions` | jsoneditor/server.js:129-140 | each option is its row's prefixed name and its unprefixed `config_pseudocode_i`, not both empty, followed by a blank row |
| `Forms.ParseCustomerOptionsExact` | jsoneditor/server.js:129-140 | `parseCustomerOptions` returns a list exactly when the form holds it followed by a blank row, and no option is blank |
| `Forms.ParseStringToArray` | jsoneditor/server.js:79-81 | an empty input gives `[]`, and every tag returned is non-empty, comma-free and trimmed |
| `Forms.ParseJoinRoundTrip` | jsoneditor/server.js:79-81 | parsing the comma-join of such a tag list gives the list back |
| `Forms.JoinStartsWithFirst` | jsoneditor/server.js:80 | a comma-join of a non-empty list is at least as long as its first item |
| `Forms.TrimKeepsItems` | jsoneditor/server.js:80 | trimming every item of a list of already trimmed tags changes nothing |
| `Scans.ScanKeeps` | jsoneditor/server.js:152-463 | a result pushed by the loop stays in the result list for the rest of the loop |
| `Scans.ScanKeepsStep` | jsoneditor/server.js:152-463 | a result pushed while one element is visited is still in the result list when the loop ends or at any later point |
| `Scans.ScanTrace` | jsoneditor/server.js:152-463 | when each element pushes at most one result, every result has one origin element, origins increase, and each origin pushed exactly that result |
| `Scans.ScanAll` | jsoneditor/server.js:152-463 | when every element pushes only results with a property, every result has it |
| `Scans.ScanAgree` | jsoneditor/server.js:152-463 | two loop bodies that push the same at every position build the same results |
| `Scans.ScanNone` | jsoneditor/server.js:152-463 | when no element pushes anything, the results are empty |
| `Search.ChildComponents` | jsoneditor/server.js:188 | the Components collected for a Category are exactly those in the data with its id as `category_id` |
| `Search.ChildOptionSets` | jsoneditor/server.js:295 | the Customer Option Sets collected for a Category are exactly those with its id as `category_id` |
| `Search.Step` | jsoneditor/server.js:152-463 | one record pushes at most one result |
| `SearchFacts.PrefixKeeps` | jsoneditor/server.js:152 | a hit emitted for an earlier record is still in the final result |
| `SearchFacts.PrefixStep` | jsoneditor/server.js:152 | each record appends its contribution to the results of the records before it |
| `SearchFacts.StepJustified` | jsoneditor/server.js:356-362 | a record's single hit is the one its type's rule emits, for the reason that rule names |
| `SearchFacts.VisitAtMostOne` | jsoneditor/server.js:152-463 | the loop body never pushes more than once |
| `SearchFacts.TraceHits` | jsoneditor/server.js:152-463 | every hit is what its origin record pushed given the hits before it, and origins increase |
| `SearchFacts.ResultIsJustified` | jsoneditor/server.js:152-465 | at most one hit per record, in record order, each justified by its record's rule; records of other types contribute nothing |
| `SearchFacts.NestedComponentsExact` | jsoneditor/server.js:188-290 | a Category nests exactly its admitted Components, each cut down to its matching versions |
| `SearchFacts.NestedOptionSetsExact` | jsoneditor/server.js:295-347 | a Category nests exactly its matching Customer Option Sets, unchanged |
| `SearchFacts.ChildComponentsConcat` | jsoneditor/server.js:188 | the Components collected for a Category from two joined record lists are those of the first list followed by those of the second |
| `SearchFacts.ChildComponentsSingle` | jsoneditor/server.js:188 | one record contributes itself exactly when it is a Component of the Category |
| `SearchFacts.ChildOptionSetsConcat` | jsoneditor/server.js:295 | the Option Sets collected from two joined record lists are those of the first followed by those of the second |
| `SearchFacts.ChildOptionSetsSingle` | jsoneditor/server.js:295 | one record contributes itself exactly when it is an Option Set of the Category |
| `SearchFacts.NestedComponentsConcat` | jsoneditor/server.js:188-290 | the nested Component list keeps input order and multiplicity: for two joined record lists it is the first list's followed by the second's |
| `SearchFacts.NestedComponentsSingle` | jsoneditor/server.js:188-290 | one Component record is nested, trimmed to its matching versions, exactly when it belongs to the Category and is admitted |
| `SearchFacts.NestedOptionSetsConcat` | jsoneditor/server.js:295-345 | the nested Option Set list keeps input order and multiplicity |
| `SearchFacts.NestedOptionSetsSingle` | jsoneditor/server.js:295-345 | one Option Set record is nested, unchanged, exactly when it belongs to the Category and matches |
| `SearchFacts.MatchingVersionsExact` | jsoneditor/server.js:220-287 | an emitted version list holds exactly the matching versions, in their original order |
| `SearchFacts.NoChildMatchesNestsNothing` | jsoneditor/server.js:286 | when no child criterion can hold, nothing is admitted and nothing is nested |
| `SearchFacts.QuietStep` | jsoneditor/server.js:152-463 | with no possible match and no category-only rule, a record pushes nothing |
| `SearchFacts.BlankQueryMatchesNothing` | jsoneditor/server.js:157-164 | without a non-empty parameter no criterion holds at any level |
| `SearchFacts.NothingGivenFindsNothing` | jsoneditor/server.js:145-466 | a query with no non-empty value and no category key returns `[]` |
| `SearchFacts.EmptyQueryFindsNothing` | jsoneditor/server.js:145-466 | the empty query returns `[]` |
| `SearchFacts.BareCategories` | jsoneditor/server.js:356-362 | the list of bare Categories is no longer than the input and holds only input Categories |
| `SearchFacts.CategoryOnlyHasNoChildMatches` | jsoneditor/server.js:351-354 | with no child key present, no child criterion can hold |
| `SearchFacts.CategoryOnlyStep` | jsoneditor/server.js:351-362 | under a category-only query a Category pushes itself bare and nothing else pushes anything |
| `SearchFacts.BareScan` | jsoneditor/server.js:152 | the loop that pushes bare Categories builds the bare Categories of the records seen |
| `SearchFacts.CategoryOnlyReturnsAllCategories` | jsoneditor/server.js:351-362 | with only category keys, the result is every Category in order with empty child lists, matching or not |
| `SearchFacts.SuppressedStep` | jsoneditor/server.js:370 | with a non-empty category parameter a record pushes only Categories |
| `SearchFacts.SuppressedMeansOnlyCategories` | jsoneditor/server.js:370 | with a non-empty `categoryName` or `categoryStatus` the result holds only Categories |
| `SearchFacts.OwnCriteriaDropVersions` | jsoneditor/server.js:286-287 | a Component admitted on its own criteria, with no version key or keyword, comes back with no versions |
| `SearchFacts.CategoryStepEmits` | jsoneditor/server.js:356-362 | a Category that qualifies pushes itself with its nested lists |
| `SearchFacts.CategoryIncluded` | jsoneditor/server.js:356-362 | a Category that matches, nests something, or meets the category-only rule is in the result with its nested lists |
| `SearchFacts.MatchingVersionCascades` | jsoneditor/server.js:278-290 | a matching version brings its Component, holding it, into its Category, and that Category into the result |
| `SearchFacts.MatchingOptionSetCascades` | jsoneditor/server.js:341-362 | a matching Customer Option Set is nested in its Category, which is in the result |
| `SearchFacts.NonCategoryStep` | jsoneditor/server.js:370-461 | a record other than a Category never pushes a Category hit |
| `SearchFacts.NoCategoryHitsBefore` | jsoneditor/server.js:422 | before the first Category no Category hit has been pushed |
| `SearchFacts.ComponentStepEmits` | jsoneditor/server.js:419-424 | an admitted Component no earlier Category nests is pushed at top level, trimmed |
| `SearchFacts.TopLevelComponentEmitted` | jsoneditor/server.js:419-424 | such a Component is in the final result at top level |
| `SearchFacts.OptionSetStepEmits` | jsoneditor/server.js:455-459 | a matching Option Set no earlier Category nests is pushed at top level, unchanged |
| `SearchFacts.TopLevelOptionSetEmitted` | jsoneditor/server.js:455-459 | such an Option Set is in the final result at top level |
| `SearchFacts.ChildBeforeCategoryAppearsTwice` | jsoneditor/server.js:422 | a Component listed before every Category is reported at top level and again nested in its Category |
| `SearchFacts.ComponentHitOrigin` | jsoneditor/server.js:419-424 | a top-level Component hit comes from an admitted Component that no earlier Category nests |
| `SearchFacts.OptionSetHitOrigin` | jsoneditor/server.js:455-459 | a top-level Option Set hit comes from a matching Option Set that no earlier Category nests |
| `SearchFacts.NestedAfterCategory` | jsoneditor/server.js:288 | once its Category is processed, an admitted Component is nested in the results |
| `SearchFacts.AdmittedIsNested` | jsoneditor/server.js:287-288 | every admitted Component of a Category, trimmed to its matching versions, is in that Category's `components` |
| `SearchFacts.CategoryHitInPrefix` | jsoneditor/server.js:152-463 | an emitted Category's result stays in the results from its own position to the end of the loop |
| `SearchFacts.ComponentInHitNested` | jsoneditor/server.js:288 | a Component listed in a Category result counts as nested in the results |
| `SearchFacts.OptionSetNestedAfterCategory` | jsoneditor/server.js:341-343 | once its Category is processed, a matching Option Set is nested in the results |
| `SearchFacts.MatchingIsNested` | jsoneditor/server.js:341-343 | every matching Option Set of a Category is in that Category's `customer_options` |
| `SearchFacts.OptionSetInHitNested` | jsoneditor/server.js:342 | an Option Set listed in a Category result counts as nested in the results |
| `SearchFacts.ComponentAfterCategoryNotRepeated` | jsoneditor/server.js:422 | with unique ids, a Component listed after its Category never appears at top level |
| `SearchFacts.OptionSetAfterCategoryNotRepeated` | jsoneditor/server.js:457 | with unique ids, an Option Set listed after its Category never appears at top level |
| `SearchFacts.SplitLocationExample` | jsoneditor/server.js:258-267 | example: with `site=a&zone=b`, a version with site `a` in one location and zone `b` in another does not match |
| `SearchFacts.SplitLinkExample` | jsoneditor/server.js:269-275 | example: with `obsKey=k&obsValue=v`, a version with key `k` in one link and value `v` in another does not match |
| `Handlers.NewId` | jsoneditor/server.js:540 | a new id is the prefix followed by one to six digits |
| `Handlers.DigitsTail` | jsoneditor/server.js:540 | the last characters of a digit string are digits |
| `Handlers.DigitsAfter` | jsoneditor/server.js:540 | a prefix followed by digits starts with the prefix and has only digits after it |
| `Handlers.NewVersion` | jsoneditor/server.js:572-586 | a new version takes the submitted version string and lifecycle status, each defaulting when blank |
| `Handlers.NewCategory` | jsoneditor/server.js:539-557 | a new Category gets the given id and timestamp, and the submitted name, status and version, each defaulting when blank |
| `Handlers.NewComponent` | jsoneditor/server.js:588-599 | a new Component gets the given id and timestamp, the submitted `category_id`, the name or its default, and exactly one version built from the form |
| `Handlers.NewOptionSet` | jsoneditor/server.js:656-670 | a new Option Set gets the given id and timestamp, the submitted `category_id`, and the customer name or its default |
| `Handlers.CategoryLookup` | jsoneditor/server.js:567 | the Category lookup comes back empty exactly when no Category has the id |
| `Handlers.AddCategory` | jsoneditor/server.js:537-561 | appends one Category with the new id, non-empty name, status and version, and the given timestamp |
| `Handlers.AddComponent` | jsoneditor/server.js:564-605 | fails exactly when no Category has the form's `category_id`; otherwise appends one Component with the new id, that parent, and one version |
| `Handlers.AddOptionSet` | jsoneditor/server.js:648-675 | fails exactly when the parent Category is missing; otherwise appends one Option Set with the new id and that parent |
| `Handlers.AddVersion` | jsoneditor/server.js:608-645 | fails with component-not-found exactly when no Component has the id; on success only the first such Component changes, and it is the old Component with the new version appended, which no old version shared, and the new timestamp |
| `Handlers.UpdateCategory` | jsoneditor/server.js:681-708 | fails exactly when no Category has the id; otherwise rewrites only the first one, keeping its id |
| `Handlers.UpdateOptionSet` | jsoneditor/server.js:712-738 | fails exactly when no Option Set has the id; otherwise rewrites only the first one, keeping its id |
| `Handlers.CategoryPasses` | jsoneditor/server.js:751-757 | the three delete-category passes equal one filter that drops the Category and its children |
| `Handlers.DeleteCategory` | jsoneditor/server.js:744-765 | fails exactly when nothing goes with the id; otherwise keeps exactly the records that do not |
| `Handlers.DeleteComponent` | jsoneditor/server.js:769-784 | fails exactly when no Component has the id; otherwise drops every Component with it |
| `Handlers.DeleteOptionSet` | jsoneditor/server.js:813-828 | fails exactly when no Option Set has the id; otherwise drops every Option Set with it |
| `Handlers.DeleteVersion` | jsoneditor/server.js:788-810 | fails with component-not-found exactly when no Component has the id; succeeds only when the first one had the version, and then drops it there |
| `HandlerFacts.DeleteCategoryExact` | jsoneditor/server.js:751-757 | after delete-category a record remains exactly when it was there and does not go with the id |
| `HandlerFacts.DeleteComponentExact` | jsoneditor/server.js:774 | after delete-component a record remains exactly when it was there and is not a Component with the id |
| `HandlerFacts.DeleteCategoryTwiceFails` | jsoneditor/server.js:759-763 | a second delete-category with the same id fails |
| `HandlerFacts.DeleteComponentTwiceFails` | jsoneditor/server.js:776-783 | a second delete-component with the same id fails |
| `HandlerFacts.DropAppended` | jsoneditor/server.js:774 | a filter that keeps the old records and drops the appended one restores the list |
| `HandlerFacts.DeleteCategoryUndoesAdd` | jsoneditor/server.js:537-561 | deleting the Category just added, by its fresh id, restores the data file |
| `HandlerFacts.DeleteComponentUndoesAdd` | jsoneditor/server.js:564-605 | when the parent Category exists and the new id is fresh, deleting the Component just added restores the data file |
| `HandlerFacts.DeleteOptionSetUndoesAdd` | jsoneditor/server.js:648-675 | when the parent Category exists and the new id is fresh, deleting the Option Set just added restores the data file |
| `HandlerFacts.FirstWhereIsFirstAt` | jsoneditor/server.js:610 | the lookup stops at the first position that passes, and at no other |
| `HandlerFacts.AddVersionAt` | jsoneditor/server.js:608-645 | when the first Component with the id lacks the version string, add-version appends the new version there and stamps the time |
| `HandlerFacts.DeleteAppendedVersion` | jsoneditor/server.js:788-810 | deleting a version string that only the appended version carries gives the Component its old version list back, with the new timestamp |
| `HandlerFacts.DeleteVersionAfterAddAt` | jsoneditor/server.js:788-810 | at that Component, deleting the version just added leaves it as before except for its `last_updated` |
| `HandlerFacts.DeleteVersionUndoesAdd` | jsoneditor/server.js:788-810 | add-version succeeds for an existing Component lacking the version string, and deleting that version again restores the data except the Component's `last_updated` |
| `HandlerFacts.UpdateCategoryAt` | jsoneditor/server.js:684-702 | update-category rewrites the Category the lookup stops at |
| `HandlerFacts.UpdateOptionSetAt` | jsoneditor/server.js:715-730 | update-customer-option-set rewrites the Option Set the lookup stops at |
| `HandlerFacts.UpdateCategoryIdempotent` | jsoneditor/server.js:681-708 | submitting the same update-category form twice gives the same data as once |
| `HandlerFacts.UpdateOptionSetIdempotent` | jsoneditor/server.js:712-738 | submitting the same update-customer-option-set form twice gives the same data as once |
| `HandlerFacts.AddVersionKeepsVersionsUnique` | jsoneditor/server.js:634-642 | add-version keeps the version strings of every Component unique |
| `HandlerFacts.AddVersionRejectsDuplicate` | jsoneditor/server.js:634-640 | add-version fails with version-exists exactly when the Component already has that version string |
| `Items.FindIndex` | jsoneditor/app.js:66 | `findIndex` gives none exactly when no item has the id, else the first position that has it |
| `Items.FoundAtIsFindIndex` | jsoneditor/app.js:89 | `findIndex` stops at the first item with the id |
| `Items.FoundAtUnique` | jsoneditor/app.js:89 | there is only one first item with the id |
| `Items.NewItemId` | jsoneditor/app.js:53 | a new item id is `item` followed by at least two digits |
| `Items.NewItemIdCount` | jsoneditor/app.js:53 | the id's leading digits read back as the list length plus one |
| `Items.AddItem` | jsoneditor/app.js:50-60 | appends one item at the end with the new id, the title or 'New Item', and the description; earlier items are unchanged |
| `Items.UpdateItem` | jsoneditor/app.js:63-74 | rewrites title and description of only the first item with the id; an unknown id changes nothing |
| `Items.KeepsOthers` | jsoneditor/app.js:80 | filtering by id keeps exactly the items with another id |
| `Items.DeleteItem` | jsoneditor/app.js:77-83 | an item remains exactly when it was there and has another id |
| `Items.DeleteItemConcat` | jsoneditor/app.js:80 | deleting from two joined lists deletes from each, so the remaining items keep their order and multiplicity |
| `Items.DeleteItemSingle` | jsoneditor/app.js:80 | one item survives exactly when its id differs |
| `Items.Swap` | jsoneditor/app.js:93 | the swap exchanges two positions and leaves the rest alone |
| `Items.SwapIsPermutation` | jsoneditor/app.js:93 | a swap keeps the same multiset of items |
| `Items.MoveDownAt` | jsoneditor/app.js:89-95 | 'down' at the first item with the id, with an item below, swaps the two |
| `Items.MoveUpAt` | jsoneditor/app.js:89-95 | 'up' at the first item with the id swaps it with the item above, and does nothing at the top |
| `Items.MoveItem` | jsoneditor/app.js:86-100 | keeps length and multiset; 'up' above the top or 'down' below the bottom swaps with the neighbour; an unknown id, a boundary or another direction changes nothing |
| `Items.MoveAt` | jsoneditor/app.js:91-96 | moving the item at a position keeps the multiset; 'up' swaps with the item above, 'down' with the item below; at the ends or for another direction nothing changes |
| `ItemFacts.MoveUpThenDown` | jsoneditor/app.js:92-95 | moving an item up and then down restores the list, with no uniqueness needed |
| `ItemFacts.MoveDownThenUp` | jsoneditor/app.js:92-95 | with distinct ids, moving an item down and then up restores the list |
| `ItemFacts.MoveDownThenUpWithSharedId` | jsoneditor/app.js:89-95 | when the item below the moved one shares its id, 'up' then finds that item: the result is the down-swap, further swapped one place up unless at the top |
| `ItemFacts.SharedIdMoveChangesList` | jsoneditor/app.js:89-95 | so with two different adjacent items sharing an id, down then up does not restore the list |
| `ItemFacts.DeleteItemUndoesAdd` | jsoneditor/app.js:50-83 | deleting the item just added, by its id, restores the list when the id was fresh |
| `ItemFacts.AddItemCanRepeatAnId` | jsoneditor/app.js:53 | with one item `item21234` in the list, an add at a clock ending in 1234 repeats that id |
| `ItemFacts.AppendDigit` | jsoneditor/app.js:53 | appending a digit to a number appends its character to the decimal string |
| `ItemFacts.DecimalEnds1234` | jsoneditor/app.js:53 | a number `10000m + 1234` prints as `m` followed by `1234`, or as `1234` alone when `m` is 0 |
| `ItemFacts.ClockEndsIn1234` | jsoneditor/app.js:53 | a clock reading with remainder 1234 modulo 10000 has `1234` as the last four characters of its decimal string |
| `ItemFacts.DeleteItemIdempotent` | jsoneditor/app.js:77-83 | deleting by the same id twice equals deleting once |
| `ItemFacts.UpdateItemIdempotent` | jsoneditor/app.js:63-74 | the same edit twice equals the edit once |

## Left out

- File I/O: `readData`, `writeData` and their error handling, data-file set-up, and upload and download. The data file is a parameter and the result is what would be written.
- Express plumbing: routing, redirects and their messages, page rendering, and the GET routes other than the search logic.
- The deep clone in `filterData`: the model's records are immutable values.
- `Date.now()` and `new Date().toISOString()`: the clock reading and the timestamp are parameters (`clock`, `now`).
- Unicode: `toLowerCase` is ASCII only, and `trim` removes ASCII whitespace only.
- A missing `id` or `category_id` is read as `""`, so a lookup with it finds a record whose id is `""`. JavaScript compares `undefined`, which matches no string id.
- Form fields a route reads but the body lacks are modelled as `""`. JavaScript would store `undefined`, which `JSON.stringify` then drops. This matters for update-category, update-customer-option-set and `/update`.
- Non-string parameters. Repeated URL parameters arrive as arrays and are not modelled; every query value is one string.
- The text a keyword search reads renders a missing `key` or `value` of a key/value entry and a missing `option_name` or `config_block_pseudocode` of an option as the word `undefined` (jsoneditor/server.js:172-173, 240, 332, 395, 451). The model stores these fields as `""`, so for example an Option Set whose only option lacks `config_block_pseudocode` is returned by `?keyword=undefined` there but not by `FilterData`. The pseudocode search itself skips a missing pseudocode, as the model does.
- Runtime errors on malformed records, such as a Category without `name` or a Component without `component_versions`. Those fields are required in the datatypes.
- A body key whose row number is not a plain decimal. The form keeps row cells by column and number, so `key_01` and `key_1` are not told apart.
- The `categoryId` field that several routes read only to choose where to redirect.

=== FILE: forms.dfy ===
/** The URL-encoded form bodies the POST handlers read, and the helpers in server.js
    that turn them into record fields: `parseStringToArray` for comma-separated tag
    lists and the row scanners `parseKVP`, `parseFlagLinks`, `parseDeploymentLocations`
    and `parseCustomerOptions` for repeated rows such as `observability_key_0`,
    `observability_value_0`, `observability_key_1`, ...

    A body key made of a column name and a row number, `${column}${i}`, is kept as the
    pair `(column, i)` in `rows`; every other key is in `fields`. A key missing from the
    body reads as the empty string, as `body[k] || ''` does. */
module Forms {
  import opened Records
  import opened Text
  import opened Seqs

  datatype Form = Form(fields: map<string, string>, rows: map<(string, nat), string>)

  /** `body[name]`, with a missing key read as `''`. */
  function Field(f: Form, name: string): string {
    if name in f.fields then f.fields[name] else ""
  }

  /** `body[name] || fallback`: the fallback replaces a missing or empty field. */
  function FieldOr(f: Form, name: string, fallback: string): (r: string)
    ensures fallback != "" ==> r != ""
    ensures Field(f, name) != "" ==> r == Field(f, name)
    ensures Field(f, name) == "" ==> r == fallback
  {
    if Field(f, name) != "" then Field(f, name) else fallback
  }

  /** `body[`${column}${i}`]`, with a missing key read as `''`. */
  function Cell(f: Form, column: string, i: nat): string {
    if (column, i) in f.rows then f.rows[(column, i)] else ""
  }

  /** Row `i` exists when at least one of its columns is non-empty (truthy). */
  predicate RowPresent(f: Form, columns: seq<string>, i: nat) {
    exists c :: c in columns && Cell(f, c, i) != ""
  }

  /** The row cells at or after row `from`; the scan's termination measure. */
  ghost function RowsFrom(f: Form, from: nat): set<(string, nat)> {
    set p | p in f.rows.Keys && p.1 >= from
  }

  lemma RowsShrink(f: Form, columns: seq<string>, from: nat)
    requires RowPresent(f, columns, from)
    ensures |RowsFrom(f, from + 1)| < |RowsFrom(f, from)|
  {
    var c :| c in columns && Cell(f, c, from) != "";
    var later, now := RowsFrom(f, from + 1), RowsFrom(f, from);
    assert (c, from) in now - later;
    assert now == later + (now - later);
    assert |now| == |later| + |now - later|;
  }

  /** The number of consecutive present rows starting at `from`: the scan
      `while (row i present) i++` stops at the first row whose columns are all empty. */
  function RowCount(f: Form, columns: seq<string>, from: nat): (n: nat)
    ensures forall i :: from <= i < from + n ==> RowPresent(f, columns, i)
    ensures !RowPresent(f, columns, from + n)
    decreases |RowsFrom(f, from)|
  {
    if RowPresent(f, columns, from) then
      RowsShrink(f, columns, from);
      1 + RowCount(f, columns, from + 1)
    else 0
  }

  lemma PresentRow1(f: Form, a: string, i: nat)
    requires RowPresent(f, [a], i)
    ensures Cell(f, a, i) != ""
  {
  }

  lemma PresentRow2(f: Form, a: string, b: string, i: nat)
    requires RowPresent(f, [a, b], i)
    ensures Cell(f, a, i) != "" || Cell(f, b, i) != ""
  {
  }

  lemma PresentRow4(f: Form, a: string, b: string, c: string, d: string, i: nat)
    requires RowPresent(f, [a, b, c, d], i)
    ensures Cell(f, a, i) != "" || Cell(f, b, i) != "" || Cell(f, c, i) != "" || Cell(f, d, i) != ""
  {
  }

  /** `parseKVP(body, prefix)`: rows of `${prefix}key_i` / `${prefix}value_i`. */
  function ParseKvp(f: Form, prefix: string): (r: seq<Kvp>)
    ensures forall i :: 0 <= i < |r| ==>
              r[i] == Kvp(Cell(f, prefix + "key_", i), Cell(f, prefix + "value_", i))
              && (r[i].key != "" || r[i].value != "")
    ensures Cell(f, prefix + "key_", |r|) == "" && Cell(f, prefix + "value_", |r|) == ""
  {
    var key, value := prefix + "key_", prefix + "value_";
    var n := RowCount(f, [key, value], 0);
    assert forall i :: 0 <= i < n ==> Cell(f, key, i) != "" || Cell(f, value, i) != "" by {
      forall i | 0 <= i < n ensures Cell(f, key, i) != "" || Cell(f, value, i) != "" {
        PresentRow2(f, key, value, i);
      }
    }
    seq(n, i requires 0 <= i < n => Kvp(Cell(f, key, i), Cell(f, value, i)))
  }

  /** `parseFlagLinks(body, prefix)`: rows of `${prefix}link_i`. */
  function ParseFlagLinks(f: Form, prefix: string): (r: seq<FlagLink>)
    ensures forall i :: 0 <= i < |r| ==>
              r[i] == FlagLink(Cell(f, prefix + "link_", i)) && r[i].link != ""
    ensures Cell(f, prefix + "link_", |r|) == ""
  {
    var link := prefix + "link_";
    var n := RowCount(f, [link], 0);
    assert forall i :: 0 <= i < n ==> Cell(f, link, i) != "" by {
      forall i | 0 <= i < n ensures Cell(f, link, i) != "" {
        PresentRow1(f, link, i);
      }
    }
    seq(n, i requires 0 <= i < n => FlagLink(Cell(f, link, i)))
  }

  /** `parseDeploymentLocations(body, prefix)`: rows of `${prefix}site_i`,
      `${prefix}zone_i`, `${prefix}segment_i` and `${prefix}country_i`. */
  function ParseDeploymentLocations(f: Form, prefix: string): (r: seq<Location>)
    ensures forall i :: 0 <= i < |r| ==>
              r[i] == Location(Cell(f, prefix + "site_", i), Cell(f, prefix + "zone_", i),
                               Cell(f, prefix + "segment_", i), Cell(f, prefix + "country_", i))
              && (r[i].site != "" || r[i].zone != "" || r[i].segment != "" || r[i].country != "")
    ensures Cell(f, prefix + "site_", |r|) == "" && Cell(f, prefix + "zone_", |r|) == ""
            && Cell(f, prefix + "segment_", |r|) == "" && Cell(f, prefix + "country_", |r|) == ""
  {
    var site, zone, segment, country := prefix + "site_", prefix + "zone_", prefix + "segment_", prefix + "country_";
    var n := RowCount(f, [site, zone, segment, country], 0);
    assert forall i :: 0 <= i < n ==>
      Cell(f, site, i) != "" || Cell(f, zone, i) != "" || Cell(f, segment, i) != "" || Cell(f, country, i) != ""
    by {
      forall i | 0 <= i < n
        ensures Cell(f, site, i) != "" || Cell(f, zone, i) != "" || Cell(f, segment, i) != "" || Cell(f, country, i) != ""
      {
        PresentRow4(f, site, zone, segment, country, i);
      }
    }
    seq(n, i requires 0 <= i < n =>
      Location(Cell(f, site, i), Cell(f, zone, i), Cell(f, segment, i), Cell(f, country, i)))
  }

  /** `parseCustomerOptions(body, prefix)`: rows of `${prefix}name_i` and
      `config_pseudocode_i`; the pseudocode column ignores the prefix. */
  function ParseCustomerOptions(f: Form, prefix: string): (r: seq<CustomerOption>)
    ensures forall i :: 0 <= i < |r| ==>
              r[i] == CustomerOption(Cell(f, prefix + "name_", i), Cell(f, "config_pseudocode_", i))
              && (r[i].optionName != "" || r[i].configBlockPseudocode != "")
    ensures Cell(f, prefix + "name_", |r|) == "" && Cell(f, "config_pseudocode_", |r|) == ""
  {
    var name, pseudocode := prefix + "name_", "config_pseudocode_";
    var n := RowCount(f, [name, pseudocode], 0);
    assert forall i :: 0 <= i < n ==> Cell(f, name, i) != "" || Cell(f, pseudocode, i) != "" by {
      forall i | 0 <= i < n ensures Cell(f, name, i) != "" || Cell(f, pseudocode, i) != "" {
        PresentRow2(f, name, pseudocode, i);
      }
    }
    seq(n, i requires 0 <= i < n => CustomerOption(Cell(f, name, i), Cell(f, pseudocode, i)))
  }

  // ---------------------------------------------------------------- which rows a form holds

  /** The row scan stops after exactly `n` rows when rows `from .. n - 1` are present
      and row `n` is not. */
  lemma RowCountIs(f: Form, columns: seq<string>, from: nat, n: nat)
    requires from <= n
    requires forall i :: from <= i < n ==> RowPresent(f, columns, i)
    requires !RowPresent(f, columns, n)
    ensures RowCount(f, columns, from) == n - from
  {
  }

  /** The form carries the pairs `kvs` as rows `0 .. |kvs| - 1` under the prefix, and
      row `|kvs|` is blank. */
  predicate HoldsKvps(f: Form, prefix: string, kvs: seq<Kvp>) {
    && (forall i :: 0 <= i < |kvs| ==>
          Cell(f, prefix + "key_", i) == kvs[i].key && Cell(f, prefix + "value_", i) == kvs[i].value)
    && Cell(f, prefix + "key_", |kvs|) == "" && Cell(f, prefix + "value_", |kvs|) == ""
  }

  /** `parseKVP` returns `kvs` exactly when the form holds them and none of them is
      entirely blank: a blank pair would end the scan early. */
  lemma ParseKvpExact(f: Form, prefix: string, kvs: seq<Kvp>)
    ensures ParseKvp(f, prefix) == kvs <==>
              HoldsKvps(f, prefix, kvs) && forall i :: 0 <= i < |kvs| ==> kvs[i].key != "" || kvs[i].value != ""
  {
    var key, value := prefix + "key_", prefix + "value_";
    if HoldsKvps(f, prefix, kvs) && forall i :: 0 <= i < |kvs| ==> kvs[i].key != "" || kvs[i].value != "" {
      forall i | 0 <= i < |kvs| ensures RowPresent(f, [key, value], i) {
        if kvs[i].key != "" { assert key in [key, value]; } else { assert value in [key, value]; }
      }
      RowCountIs(f, [key, value], 0, |kvs|);
    }
  }

  /** The form carries the links as rows of `${prefix}link_i`, and row `|links|` is blank. */
  predicate HoldsFlagLinks(f: Form, prefix: string, links: seq<FlagLink>) {
    && (forall i :: 0 <= i < |links| ==> Cell(f, prefix + "link_", i) == links[i].link)
    && Cell(f, prefix + "link_", |links|) == ""
  }

  /** `parseFlagLinks` returns `links` exactly when the form holds them and none is blank. */
  lemma ParseFlagLinksExact(f: Form, prefix: string, links: seq<FlagLink>)
    ensures ParseFlagLinks(f, prefix) == links <==>
              HoldsFlagLinks(f, prefix, links) && forall i :: 0 <= i < |links| ==> links[i].link != ""
  {
    var link := prefix + "link_";
    if HoldsFlagLinks(f, prefix, links) && forall i :: 0 <= i < |links| ==> links[i].link != "" {
      forall i | 0 <= i < |links| ensures RowPresent(f, [link], i) {
        assert link in [link];
      }
      RowCountIs(f, [link], 0, |links|);
    }
  }

  /** The form carries the locations as rows of site, zone, segment and country, and
      row `|locs|` is blank. */
  predicate HoldsLocations(f: Form, prefix: string, locs: seq<Location>) {
    && (forall i :: 0 <= i < |locs| ==>
          && Cell(f, prefix + "site_", i) == locs[i].site && Cell(f, prefix + "zone_", i) == locs[i].zone
          && Cell(f, prefix + "segment_", i) == locs[i].segment && Cell(f, prefix + "country_", i) == locs[i].country)
    && Cell(f, prefix + "site_", |locs|) == "" && Cell(f, prefix + "zone_", |locs|) == ""
    && Cell(f, prefix + "segment_", |locs|) == "" && Cell(f, prefix + "country_", |locs|) == ""
  }

  predicate LocationNotBlank(l: Location) {
    l.site != "" || l.zone != "" || l.segment != "" || l.country != ""
  }

  /** `parseDeploymentLocations` returns `locs` exactly when the form holds them and
      every one has some non-empty part. */
  lemma ParseDeploymentLocationsExact(f: Form, prefix: string, locs: seq<Location>)
    ensures ParseDeploymentLocations(f, prefix) == locs <==>
              HoldsLocations(f, prefix, locs) && forall i :: 0 <= i < |locs| ==> LocationNotBlank(locs[i])
  {
    var site, zone, segment, country := prefix + "site_", prefix + "zone_", prefix + "segment_", prefix + "country_";
    var cols := [site, zone, segment, country];
    if HoldsLocations(f, prefix, locs) && forall i :: 0 <= i < |locs| ==> LocationNotBlank(locs[i]) {
      forall i | 0 <= i < |locs| ensures RowPresent(f, cols, i) {
        if locs[i].site != "" { assert site in cols; }
        else if locs[i].zone != "" { assert zone in cols; }
        else if locs[i].segment != "" { assert segment in cols; }
        else { assert country in cols; }
      }
      assert !RowPresent(f, cols, |locs|);
      RowCountIs(f, cols, 0, |locs|);
    } else if ParseDeploymentLocations(f, prefix) == locs {
      assert forall i :: 0 <= i < |locs| ==> LocationNotBlank(locs[i]);
    }
  }

  /** The form carries the options as rows of `${prefix}name_i` and `config_pseudocode_i`,
      and row `|opts|` is blank. */
  predicate HoldsOptions(f: Form, prefix: string, opts: seq<CustomerOption>) {
    && (forall i :: 0 <= i < |opts| ==>
          Cell(f, prefix + "name_", i) == opts[i].optionName
          && Cell(f, "config_pseudocode_", i) == opts[i].configBlockPseudocode)
    && Cell(f, prefix + "name_", |opts|) == "" && Cell(f, "config_pseudocode_", |opts|) == ""
  }

  /** `parseCustomerOptions` returns `opts` exactly when the form holds them and none
      has both its name and its pseudocode empty. */
  lemma ParseCustomerOptionsExact(f: Form, prefix: string, opts: seq<CustomerOption>)
    ensures ParseCustomerOptions(f, prefix) == opts <==>
              HoldsOptions(f, prefix, opts)
              && forall i :: 0 <= i < |opts| ==> opts[i].optionName != "" || opts[i].configBlockPseudocode != ""
  {
    var name, pseudocode := prefix + "name_", "config_pseudocode_";
    if HoldsOptions(f, prefix, opts)
       && forall i :: 0 <= i < |opts| ==> opts[i].optionName != "" || opts[i].configBlockPseudocode != ""
    {
      forall i | 0 <= i < |opts| ensures RowPresent(f, [name, pseudocode], i) {
        if opts[i].optionName != "" { assert name in [name, pseudocode]; }
        else { assert pseudocode in [name, pseudocode]; }
      }
      RowCountIs(f, [name, pseudocode], 0, |opts|);
    }
  }

  // ---------------------------------------------------------------- comma-separated lists

  predicate NonEmpty(s: string) {
    s != ""
  }

  /** A tag as `parseStringToArray` produces it: non-empty, comma-free and trimmed. */
  predicate IsListItem(s: string) {
    s != "" && ',' !in s && IsTrimmed(s)
  }

  /** `parseStringToArray(str)`: split on commas, trim every piece, drop the empty ones;
      a missing or empty string gives the empty list. */
  function ParseStringToArray(s: string): (r: seq<string>)
    ensures s == "" ==> r == []
    ensures forall i :: 0 <= i < |r| ==> IsListItem(r[i])
  {
    if s == "" then []
    else
      var pieces := Split(s, ',');
      var trimmed := Map(pieces, Trim);
      assert forall j :: 0 <= j < |trimmed| ==> ',' !in trimmed[j] && IsTrimmed(trimmed[j]);
      Filter(trimmed, NonEmpty)
  }

  lemma JoinStartsWithFirst(xs: seq<string>, sep: string)
    requires |xs| > 0
    ensures |Join(xs, sep)| >= |xs[0]|
  {
    if |xs| > 1 {
      assert Join(xs, sep) == xs[0] + sep + Join(xs[1..], sep);
    }
  }

  lemma TrimKeepsItems(xs: seq<string>)
    requires forall i :: 0 <= i < |xs| ==> IsListItem(xs[i])
    ensures Map(xs, Trim) == xs
  {
    var trimmed := Map(xs, Trim);
    assert forall i :: 0 <= i < |xs| ==> trimmed[i] == xs[i];
  }

  /** Parsing the comma-join of a list of tags gives the list back. */
  lemma ParseJoinRoundTrip(xs: seq<string>)
    requires forall i :: 0 <= i < |xs| ==> IsListItem(xs[i])
    ensures ParseStringToArray(Join(xs, ",")) == xs
  {
    if |xs| > 0 {
      var s := Join(xs, [',']);
      JoinStartsWithFirst(xs, [',']);
      SplitJoin(xs, ',');
      TrimKeepsItems(xs);
      FilterKeepsAll(xs, NonEmpty);
      assert ParseStringToArray(s) == Filter(Map(Split(s, ','), Trim), NonEmpty);
    }
  }
}

=== FILE: handler_facts.dfy ===
/** How the POST routes relate to one another: deleting what was just added restores
    the data file, updates are idempotent, deletions remove exactly what they name and
    cannot succeed twice, and adding a version keeps version strings unique. */
module HandlerFacts {
  import opened Wrappers
  import opened Text
  import opened Seqs
  import opened Records
  import opened Forms
  import opened Handlers

  // ---------------------------------------------------------------- deletions are exact

  /** delete-category keeps a record exactly when it does not go with the id. */
  lemma DeleteCategoryExact(data: Store, id: string)
    requires DeleteCategory(data, id).Success?
    ensures forall r :: r in DeleteCategory(data, id).value <==> r in data && !GoesWithCategory(r, id)
  {
    var kept := DeleteCategory(data, id).value;
    forall r | r in data && !GoesWithCategory(r, id) ensures r in kept {
      var i :| 0 <= i < |data| && data[i] == r;
      assert SurvivesCategory(id)(data[i]);
    }
    forall r | r in kept ensures r in data && !GoesWithCategory(r, id) {
      var i :| 0 <= i < |kept| && kept[i] == r;
      assert SurvivesCategory(id)(kept[i]);
    }
  }

  /** delete-component keeps a record exactly when it is not a Component with the id. */
  lemma DeleteComponentExact(data: Store, id: string)
    requires DeleteComponent(data, id).Success?
    ensures forall r :: r in DeleteComponent(data, id).value <==> r in data && !IsComponentWithId(r, id)
  {
    var kept := DeleteComponent(data, id).value;
    forall r | r in data && !IsComponentWithId(r, id) ensures r in kept {
      var i :| 0 <= i < |data| && data[i] == r;
      assert NotComponent(id)(data[i]);
    }
    forall r | r in kept ensures r in data && !IsComponentWithId(r, id) {
      var i :| 0 <= i < |kept| && kept[i] == r;
      assert NotComponent(id)(kept[i]);
    }
  }

  /** A second delete-category with the same id finds nothing to remove. */
  lemma DeleteCategoryTwiceFails(data: Store, id: string)
    requires DeleteCategory(data, id).Success?
    ensures DeleteCategory(DeleteCategory(data, id).value, id) == Failure(CategoryNotFound)
  {
    var kept := DeleteCategory(data, id).value;
    forall i | 0 <= i < |kept| ensures !GoesWithCategory(kept[i], id) {
      assert SurvivesCategory(id)(kept[i]);
    }
  }

  /** A second delete-component with the same id finds nothing to remove. */
  lemma DeleteComponentTwiceFails(data: Store, id: string)
    requires DeleteComponent(data, id).Success?
    ensures DeleteComponent(DeleteComponent(data, id).value, id) == Failure(ComponentNotFound)
  {
    var kept := DeleteComponent(data, id).value;
    forall i | 0 <= i < |kept| ensures !IsComponentWithId(kept[i], id) {
      assert NotComponent(id)(kept[i]);
    }
  }

  // ---------------------------------------------------------------- deleting what was added

  /** Filtering the data plus one record the filter drops gives back the data, when the
      filter keeps every record of the data. */
  lemma DropAppended(data: Store, e: Record, p: Record -> bool)
    requires forall i :: 0 <= i < |data| ==> p(data[i])
    requires !p(e)
    ensures Filter(data + [e], p) == data
  {
    FilterConcat(data, [e], p);
    FilterKeepsAll(data, p);
    FilterNone([e], p);
  }

  /** Deleting the Category just added, by its new id, restores the data file when
      nothing in it belonged to that id before. */
  lemma DeleteCategoryUndoesAdd(data: Store, f: Form, clock: nat, now: string)
    requires forall i :: 0 <= i < |data| ==> !GoesWithCategory(data[i], NewId("category_", clock))
    ensures DeleteCategory(AddCategory(data, f, clock, now), NewId("category_", clock)) == Success(data)
  {
    var id := NewId("category_", clock);
    var added := AddCategory(data, f, clock, now);
    assert added == data + [added[|data|]];
    forall i | 0 <= i < |data| ensures SurvivesCategory(id)(data[i]) { }
    DropAppended(data, added[|data|], SurvivesCategory(id));
  }

  /** Deleting the Component just added, by its new id, restores the data file when no
      Component had that id before. */
  lemma DeleteComponentUndoesAdd(data: Store, f: Form, clock: nat, now: string)
    requires HasCategory(data, Field(f, "category_id"))
    requires !HasComponent(data, NewId("comp_", clock))
    ensures DeleteComponent(AddComponent(data, f, clock, now).value, NewId("comp_", clock)) == Success(data)
  {
    var id := NewId("comp_", clock);
    var added := AddComponent(data, f, clock, now).value;
    assert added == data + [added[|data|]];
    forall i | 0 <= i < |data| ensures NotComponent(id)(data[i]) { }
    DropAppended(data, added[|data|], NotComponent(id));
  }

  /** Deleting the Option Set just added, by its new id, restores the data file when no
      Option Set had that id before. */
  lemma DeleteOptionSetUndoesAdd(data: Store, f: Form, clock: nat, now: string)
    requires HasCategory(data, Field(f, "category_id"))
    requires !HasOptionSet(data, NewId("customer_opt_", clock))
    ensures DeleteOptionSet(AddOptionSet(data, f, clock, now).value, NewId("customer_opt_", clock)) == Success(data)
  {
    var id := NewId("customer_opt_", clock);
    var added := AddOptionSet(data, f, clock, now).value;
    assert added == data + [added[|data|]];
    forall i | 0 <= i < |data| ensures NotOptionSet(id)(data[i]) { }
    DropAppended(data, added[|data|], NotOptionSet(id));
  }

  /** `find` stops at the first position where `p` holds, and only there. */
  lemma FirstWhereIsFirstAt(data: Store, p: Record -> bool, i: nat)
    requires FirstAt(data, p, i)
    ensures FirstWhere(data, p) == Some(i)
    ensures forall j: nat :: FirstAt(data, p, j) ==> j == i
  {
  }

  /** add-version at a Component `find` stops at, whose versions lack the new string. */
  lemma AddVersionAt(data: Store, componentId: string, f: Form, now: string, i: nat)
    requires FirstAt(data, ComponentWith(componentId), i)
    requires forall a :: 0 <= a < |data[i].component.versions| ==>
               data[i].component.versions[a].version != FieldOr(f, "version", "1.0.0")
    ensures var k := data[i].component;
            AddVersion(data, componentId, f, now)
              == Success(data[i := ComponentRec(k.(versions := k.versions + [NewVersion(f, "new_version_deployment_", "new_version_obs_")],
                                                   lastUpdated := now))])
  {
    var k := data[i].component;
    var s := NewVersion(f, "new_version_deployment_", "new_version_obs_").version;
    FirstWhereIsFirstAt(data, ComponentWith(componentId), i);
    forall a | 0 <= a < |k.versions| ensures !SameVersion(s)(k.versions[a]) { }
  }

  /** delete-version of a version appended, with a fresh string, to the Component `find`
      stops at: the Component gets its old version list back. */
  lemma DeleteAppendedVersion(data: Store, componentId: string, v: Version, now: string, later: string, i: nat)
    requires FirstAt(data, ComponentWith(componentId), i)
    requires forall a :: 0 <= a < |data[i].component.versions| ==> data[i].component.versions[a].version != v.version
    ensures var k := data[i].component;
            DeleteVersion(data[i := ComponentRec(k.(versions := k.versions + [v], lastUpdated := now))],
                          componentId, v.version, later)
            == Success(data[i := ComponentRec(k.(lastUpdated := later))])
  {
    var k := data[i].component;
    var s := v.version;
    var k2 := k.(versions := k.versions + [v], lastUpdated := now);
    var added := data[i := ComponentRec(k2)];
    assert FirstAt(added, ComponentWith(componentId), i);
    FirstWhereIsFirstAt(added, ComponentWith(componentId), i);
    forall a | 0 <= a < |k.versions| ensures OtherVersion(s)(k.versions[a]) {
      assert k.versions[a].version != s;
    }
    FilterConcat(k.versions, [v], OtherVersion(s));
    FilterKeepsAll(k.versions, OtherVersion(s));
    FilterNone([v], OtherVersion(s));
    var kept := Filter(k2.versions, OtherVersion(s));
    assert kept == k.versions;
    assert |kept| < |k2.versions|;
    assert DeleteVersion(added, componentId, s, later)
           == Success(added[i := ComponentRec(k2.(versions := kept, lastUpdated := later))]);
    assert added[i := ComponentRec(k2.(versions := kept, lastUpdated := later))]
           == data[i := ComponentRec(k.(lastUpdated := later))];
  }

  /** delete-version of the version just added, at the Component `find` stops at. */
  lemma DeleteVersionAfterAddAt(data: Store, componentId: string, f: Form, now: string, later: string, i: nat)
    requires FirstAt(data, ComponentWith(componentId), i)
    requires forall a :: 0 <= a < |data[i].component.versions| ==>
               data[i].component.versions[a].version != FieldOr(f, "version", "1.0.0")
    ensures AddVersion(data, componentId, f, now).Success?
    ensures DeleteVersion(AddVersion(data, componentId, f, now).value, componentId,
                          FieldOr(f, "version", "1.0.0"), later)
            == Success(data[i := ComponentRec(data[i].component.(lastUpdated := later))])
  {
    var v := NewVersion(f, "new_version_deployment_", "new_version_obs_");
    assert v.version == FieldOr(f, "version", "1.0.0");
    AddVersionAt(data, componentId, f, now, i);
    DeleteAppendedVersion(data, componentId, v, now, later, i);
  }

  /** Deleting the version just added restores the Component's version list; only its
      `last_updated` differs, and every other record is as it was. */
  lemma DeleteVersionUndoesAdd(data: Store, componentId: string, f: Form, now: string, later: string)
    requires HasComponent(data, componentId)
    requires forall i: nat :: FirstAt(data, ComponentWith(componentId), i) ==>
               forall a :: 0 <= a < |data[i].component.versions| ==>
                 data[i].component.versions[a].version != FieldOr(f, "version", "1.0.0")
    ensures AddVersion(data, componentId, f, now).Success?
    ensures var r := DeleteVersion(AddVersion(data, componentId, f, now).value, componentId,
                                   FieldOr(f, "version", "1.0.0"), later);
            && r.Success?
            && forall i: nat :: FirstAt(data, ComponentWith(componentId), i) ==>
                 r.value == data[i := ComponentRec(data[i].component.(lastUpdated := later))]
  {
    var j: nat :| j < |data| && IsComponentWithId(data[j], componentId);
    assert ComponentWith(componentId)(data[j]);
    var i := FirstWhere(data, ComponentWith(componentId)).value;
    assert FirstAt(data, ComponentWith(componentId), i);
    DeleteVersionAfterAddAt(data, componentId, f, now, later, i);
    FirstWhereIsFirstAt(data, ComponentWith(componentId), i);
  }

  // ---------------------------------------------------------------- updates and versions

  /** update-category at the Category `find` stops at. */
  lemma UpdateCategoryAt(data: Store, f: Form, now: string, i: nat)
    requires FirstAt(data, CategoryWith(Field(f, "id")), i)
    ensures UpdateCategory(data, f, now) == Success(data[i := CategoryRec(EditedCategory(data[i].category, f, now))])
  {
    FirstWhereIsFirstAt(data, CategoryWith(Field(f, "id")), i);
  }

  /** update-customer-option-set at the Option Set `find` stops at. */
  lemma UpdateOptionSetAt(data: Store, f: Form, now: string, i: nat)
    requires FirstAt(data, OptionSetWith(Field(f, "id")), i)
    ensures UpdateOptionSet(data, f, now) == Success(data[i := OptionSetRec(EditedOptionSet(data[i].optionSet, f, now))])
  {
    FirstWhereIsFirstAt(data, OptionSetWith(Field(f, "id")), i);
  }

  /** Submitting the same update-category form twice, at the same time, changes nothing
      the second time. */
  lemma UpdateCategoryIdempotent(data: Store, f: Form, now: string)
    requires UpdateCategory(data, f, now).Success?
    ensures UpdateCategory(UpdateCategory(data, f, now).value, f, now) == UpdateCategory(data, f, now)
  {
    var id := Field(f, "id");
    var i := FirstWhere(data, CategoryWith(id)).value;
    var c := EditedCategory(data[i].category, f, now);
    var once := data[i := CategoryRec(c)];
    UpdateCategoryAt(data, f, now, i);
    assert FirstAt(once, CategoryWith(id), i) by {
      assert once[i].category.id == data[i].category.id;
      forall j | 0 <= j < i ensures !CategoryWith(id)(once[j]) {
        assert once[j] == data[j];
      }
    }
    UpdateCategoryAt(once, f, now, i);
    assert EditedCategory(once[i].category, f, now) == c;
    assert once[i := CategoryRec(c)] == once;
  }

  /** Submitting the same update-customer-option-set form twice changes nothing the
      second time. */
  lemma UpdateOptionSetIdempotent(data: Store, f: Form, now: string)
    requires UpdateOptionSet(data, f, now).Success?
    ensures UpdateOptionSet(UpdateOptionSet(data, f, now).value, f, now) == UpdateOptionSet(data, f, now)
  {
    var id := Field(f, "id");
    var i := FirstWhere(data, OptionSetWith(id)).value;
    var o := EditedOptionSet(data[i].optionSet, f, now);
    var once := data[i := OptionSetRec(o)];
    UpdateOptionSetAt(data, f, now, i);
    assert FirstAt(once, OptionSetWith(id), i) by {
      assert once[i].optionSet.id == data[i].optionSet.id;
      forall j | 0 <= j < i ensures !OptionSetWith(id)(once[j]) {
        assert once[j] == data[j];
      }
    }
    UpdateOptionSetAt(once, f, now, i);
    assert EditedOptionSet(once[i].optionSet, f, now) == o;
    assert once[i := OptionSetRec(o)] == once;
  }

  /** add-version keeps the version strings of every Component unique. */
  lemma AddVersionKeepsVersionsUnique(data: Store, componentId: string, f: Form, now: string)
    requires AddVersion(data, componentId, f, now).Success?
    requires forall j :: 0 <= j < |data| && data[j].ComponentRec? ==> UniqueVersions(data[j].component)
    ensures var r := AddVersion(data, componentId, f, now).value;
            forall j :: 0 <= j < |r| && r[j].ComponentRec? ==> UniqueVersions(r[j].component)
  {
    var i := FirstWhere(data, ComponentWith(componentId)).value;
    var k := data[i].component;
    var v := NewVersion(f, "new_version_deployment_", "new_version_obs_");
    assert !Any(k.versions, SameVersion(v.version));
    var k' := k.(versions := k.versions + [v], lastUpdated := now);
    var r := data[i := ComponentRec(k')];
    assert AddVersion(data, componentId, f, now) == Success(r);
    assert UniqueVersions(k);
    var vs := k'.versions;
    forall a, b | 0 <= a < b < |vs| ensures vs[a].version != vs[b].version {
      assert vs[a] == k.versions[a];
      if b == |k.versions| {
        assert !SameVersion(v.version)(k.versions[a]);
      } else {
        assert vs[b] == k.versions[b];
      }
    }
    assert UniqueVersions(k');
  }

  /** add-version fails with `VersionExists` exactly when the Component already has a
      version with the submitted string. */
  lemma AddVersionRejectsDuplicate(data: Store, componentId: string, f: Form, now: string, i: nat)
    requires FirstAt(data, ComponentWith(componentId), i)
    ensures var s := FieldOr(f, "version", "1.0.0");
            AddVersion(data, componentId, f, now) == Failure(VersionExists(s))
            <==> exists a :: 0 <= a < |data[i].component.versions| && data[i].component.versions[a].version == s
  {
    var s := FieldOr(f, "version", "1.0.0");
    var vs := data[i].component.versions;
    assert Any(vs, SameVersion(s)) <==> exists a :: 0 <= a < |vs| && vs[a].version == s by {
      if Any(vs, SameVersion(s)) {
        var a :| 0 <= a < |vs| && SameVersion(s)(vs[a]);
      }
      if exists a :: 0 <= a < |vs| && vs[a].version == s {
        var a :| 0 <= a < |vs| && vs[a].version == s;
        assert SameVersion(s)(vs[a]);
      }
    }
    match FirstWhere(data, ComponentWith(componentId))
    case None =>
    case Some(i') => assert i' == i;
  }
}

=== FILE: handlers.dfy ===
/** The data effects of the POST routes of server.js that change the data file: each
    takes the records as `readData()` returned them and the submitted form, and either
    yields the records `writeData` is given or the error the route redirects with, in
    which case nothing is written. The clock (`Date.now()` and `new Date().toISOString()`)
    is a parameter: `clock` is the millisecond count, `now` the ISO timestamp. */
module Handlers {
  import opened Wrappers
  import opened Text
  import opened Seqs
  import opened Records
  import opened Forms

  /** Why a route redirects with an error message instead of writing. */
  datatype Error =
    | CategoryNotFound
    | ComponentNotFound
    | VersionExists(version: string)
    | VersionNotFound
    | OptionSetNotFound

  /** `prefix + Date.now().toString().slice(-6)`. */
  function NewId(prefix: string, clock: nat): (r: string)
    ensures |prefix| < |r| <= |prefix| + 6 && r[..|prefix|] == prefix
    ensures forall i :: |prefix| <= i < |r| ==> IsDigit(r[i])
  {
    var tail := TakeLast(DecimalString(clock), 6);
    DigitsTail(DecimalString(clock), 6);
    DigitsAfter(prefix, tail);
    prefix + tail
  }

  /** The last characters of a string of digits are digits. */
  lemma DigitsTail(digits: string, k: nat)
    requires forall i :: 0 <= i < |digits| ==> IsDigit(digits[i])
    ensures forall i :: 0 <= i < |TakeLast(digits, k)| ==> IsDigit(TakeLast(digits, k)[i])
  {
    var tail := TakeLast(digits, k);
    forall i | 0 <= i < |tail| ensures IsDigit(tail[i]) {
      assert tail[i] == digits[|digits| - |tail| + i];
    }
  }

  /** A prefix followed by digits keeps the prefix and has only digits after it. */
  lemma DigitsAfter(prefix: string, tail: string)
    requires forall i :: 0 <= i < |tail| ==> IsDigit(tail[i])
    ensures (prefix + tail)[..|prefix|] == prefix
    ensures forall i :: |prefix| <= i < |prefix + tail| ==> IsDigit((prefix + tail)[i])
  {
    assert forall i :: |prefix| <= i < |prefix + tail| ==> (prefix + tail)[i] == tail[i - |prefix|];
  }

  // ---------------------------------------------------------------- lookups

  function CategoryWith(id: string): Record -> bool {
    r => IsCategoryWithId(r, id)
  }

  function ComponentWith(id: string): Record -> bool {
    r => IsComponentWithId(r, id)
  }

  function OptionSetWith(id: string): Record -> bool {
    r => IsOptionSetWithId(r, id)
  }

  predicate HasCategory(data: Store, id: string) {
    exists i :: 0 <= i < |data| && IsCategoryWithId(data[i], id)
  }

  predicate HasComponent(data: Store, id: string) {
    exists i :: 0 <= i < |data| && IsComponentWithId(data[i], id)
  }

  predicate HasOptionSet(data: Store, id: string) {
    exists i :: 0 <= i < |data| && IsOptionSetWithId(data[i], id)
  }

  /** `find` for a Category comes back empty exactly when there is none with the id. */
  lemma CategoryLookup(data: Store, id: string)
    ensures FirstWhere(data, CategoryWith(id)).None? <==> !HasCategory(data, id)
  {
    if HasCategory(data, id) {
      var i :| 0 <= i < |data| && IsCategoryWithId(data[i], id);
      assert CategoryWith(id)(data[i]);
    }
  }

  /** `i` is where `Array.prototype.find` / `findIndex` stops for `p`. */
  predicate FirstAt(data: Store, p: Record -> bool, i: nat) {
    i < |data| && p(data[i]) && forall j :: 0 <= j < i ==> !p(data[j])
  }

  // ---------------------------------------------------------------- new records

  /** The version object built by add-component and add-version; the two routes read
      the locations and observability links under different prefixes. */
  function NewVersion(f: Form, deploymentPrefix: string, obsPrefix: string): (v: Version)
    ensures v.version == FieldOr(f, "version", "1.0.0")
    ensures v.lifecycleStatus == FieldOr(f, "lifecycle_status", "active")
  {
    Version(
      FieldOr(f, "version", "1.0.0"),
      FieldOr(f, "lifecycle_status", "active"),
      Some(Governance(FieldOr(f, "governance_status", "draft"), Field(f, "governance_approval_link"))),
      Field(f, "topology_diagram_link"),
      ParseDeploymentLocations(f, deploymentPrefix),
      Field(f, "operational_guidelines_link"),
      ParseStringToArray(Field(f, "standards_tags")),
      ParseKvp(f, obsPrefix),
      Field(f, "base_config_source_link"),
      ParseStringToArray(Field(f, "supported_capabilities")))
  }

  /** The Category built by add-category: the id and timestamp it is given, and the
      submitted name, status and version, each falling back to its default when blank. */
  function NewCategory(f: Form, id: string, now: string): (c: Category)
    ensures c.id == id && c.lastUpdated == now
    ensures c.name == FieldOr(f, "name", "New Category") && c.status == FieldOr(f, "status", "notApproved")
    ensures c.categoryVersion == FieldOr(f, "category_version", "1.0.0")
  {
    Category(
      id,
      FieldOr(f, "category_version", "1.0.0"),
      FieldOr(f, "name", "New Category"),
      FieldOr(f, "status", "notApproved"),
      Field(f, "governance_record_link"),
      Field(f, "topology_view_link"),
      Field(f, "rationale"),
      ParseStringToArray(Field(f, "guidelines_library_tags")),
      ParseStringToArray(Field(f, "controls_alignments_library_tags")),
      ParseStringToArray(Field(f, "standards_library_tags")),
      Field(f, "roadmap_link"),
      Field(f, "fsa_link"),
      ParseStringToArray(Field(f, "fsa_library_tags")),
      ParseKvp(f, "observability_"),
      ParseKvp(f, "contacts_"),
      now)
  }

  /** The Component built by add-component: the id and timestamp it is given, the
      submitted Category id, and one version built from the form. */
  function NewComponent(f: Form, id: string, now: string): (k: Component)
    ensures k.id == id && k.categoryId == Field(f, "category_id") && k.lastUpdated == now
    ensures k.name == FieldOr(f, "name", "New Component")
    ensures k.versions == [NewVersion(f, "deployment_", "obs_")]
  {
    Component(
      id,
      Field(f, "category_id"),
      FieldOr(f, "name", "New Component"),
      Field(f, "description"),
      FieldOr(f, "component_type", "service"),
      FieldOr(f, "component_label", "strategic"),
      ParseFlagLinks(f, "arr_"),
      ParseFlagLinks(f, "risk_"),
      now,
      [NewVersion(f, "deployment_", "obs_")])
  }

  /** The Option Set built by add-customer-option-set: the id and timestamp it is given,
      the submitted Category id, and the customer name or its default. */
  function NewOptionSet(f: Form, id: string, now: string): (s: OptionSet)
    ensures s.id == id && s.categoryId == Field(f, "category_id") && s.lastUpdated == now
    ensures s.customerName == FieldOr(f, "customer_name", "New Customer")
  {
    OptionSet(
      id,
      Field(f, "category_id"),
      FieldOr(f, "customer_name", "New Customer"),
      FieldOr(f, "customer_option_version", "1.0.0"),
      FieldOr(f, "lifecycle_status", "active"),
      Some(Governance(FieldOr(f, "governance_status", "draft"), Field(f, "governance_approval_link"))),
      Field(f, "guidance_rationale"),
      ParseStringToArray(Field(f, "capabilities_required")),
      ParseCustomerOptions(f, "option_"),
      now)
  }

  // ---------------------------------------------------------------- adding

  /** `POST add-category`: always appends a new Category. */
  function AddCategory(data: Store, f: Form, clock: nat, now: string): (r: Store)
    ensures |r| == |data| + 1 && r[..|data|] == data
    ensures IsCategoryWithId(r[|data|], NewId("category_", clock))
    ensures var c := r[|data|].category;
            && c.name != "" && c.status != "" && c.categoryVersion != "" && c.lastUpdated == now
            && (Field(f, "name") != "" ==> c.name == Field(f, "name"))
  {
    var c := NewCategory(f, NewId("category_", clock), now);
    var r := data + [CategoryRec(c)];
    assert r[..|data|] == data;
    r
  }

  /** `POST add-component`: appends a Component with one version, provided the Category
      named by `category_id` exists. */
  function AddComponent(data: Store, f: Form, clock: nat, now: string): (r: Result<Store, Error>)
    ensures r.Failure? <==> !HasCategory(data, Field(f, "category_id"))
    ensures r.Failure? ==> r.error == CategoryNotFound
    ensures r.Success? ==>
              && |r.value| == |data| + 1 && r.value[..|data|] == data
              && IsComponentWithId(r.value[|data|], NewId("comp_", clock))
              && r.value[|data|].component.categoryId == Field(f, "category_id")
              && |r.value[|data|].component.versions| == 1
              && r.value[|data|].component.versions[0].version != ""
  {
    CategoryLookup(data, Field(f, "category_id"));
    match FirstWhere(data, CategoryWith(Field(f, "category_id")))
    case None => Failure(CategoryNotFound)
    case Some(_) =>
      var k := NewComponent(f, NewId("comp_", clock), now);
      assert k.versions[0].version != "";
      var r := data + [ComponentRec(k)];
      assert r[..|data|] == data;
      Success(r)
  }

  /** `POST add-customer-option-set`: appends an Option Set, provided its Category exists. */
  function AddOptionSet(data: Store, f: Form, clock: nat, now: string): (r: Result<Store, Error>)
    ensures r.Failure? <==> !HasCategory(data, Field(f, "category_id"))
    ensures r.Failure? ==> r.error == CategoryNotFound
    ensures r.Success? ==>
              && |r.value| == |data| + 1 && r.value[..|data|] == data
              && IsOptionSetWithId(r.value[|data|], NewId("customer_opt_", clock))
              && r.value[|data|].optionSet.categoryId == Field(f, "category_id")
              && r.value[|data|].optionSet.customerName != ""
  {
    CategoryLookup(data, Field(f, "category_id"));
    match FirstWhere(data, CategoryWith(Field(f, "category_id")))
    case None => Failure(CategoryNotFound)
    case Some(_) =>
      var s := NewOptionSet(f, NewId("customer_opt_", clock), now);
      var r := data + [OptionSetRec(s)];
      assert r[..|data|] == data;
      Success(r)
  }

  function SameVersion(version: string): Version -> bool {
    (v: Version) => v.version == version
  }

  /** No two versions of the Component share a version string. */
  predicate UniqueVersions(k: Component) {
    forall a, b :: 0 <= a < b < |k.versions| ==> k.versions[a].version != k.versions[b].version
  }

  /** `POST component/:componentId/add-version`: appends a version to the first
      Component with the id, unless it already has a version with the same string. */
  function AddVersion(data: Store, componentId: string, f: Form, now: string): (r: Result<Store, Error>)
    ensures r == Failure(ComponentNotFound) <==> !HasComponent(data, componentId)
    ensures r.Success? ==>
              exists i: nat :: FirstAt(data, ComponentWith(componentId), i)
                          && var k := data[i].component;
                          && |r.value| == |data|
                          && (forall j :: 0 <= j < |data| && j != i ==> r.value[j] == data[j])
                          && (forall a :: 0 <= a < |k.versions| ==> k.versions[a].version != FieldOr(f, "version", "1.0.0"))
                          && r.value[i] == ComponentRec(k.(versions := k.versions + [NewVersion(f, "new_version_deployment_", "new_version_obs_")],
                                                           lastUpdated := now))
  {
    match FirstWhere(data, ComponentWith(componentId))
    case None => Failure(ComponentNotFound)
    case Some(i) =>
      var k := data[i].component;
      var v := NewVersion(f, "new_version_deployment_", "new_version_obs_");
      if Any(k.versions, SameVersion(v.version)) then Failure(VersionExists(v.version))
      else
        var r := data[i := ComponentRec(k.(versions := k.versions + [v], lastUpdated := now))];
        assert FirstAt(data, ComponentWith(componentId), i);
        assert forall a :: 0 <= a < |k.versions| ==> k.versions[a].version != v.version;
        assert |r| == |data| && forall j :: 0 <= j < |data| && j != i ==> r[j] == data[j];
        Success(r)
  }

  // ---------------------------------------------------------------- updating

  /** The fields update-category overwrites; only the id is kept. A field missing from
      the form is stored as the empty string. */
  function EditedCategory(c: Category, f: Form, now: string): Category {
    Category(
      c.id,
      Field(f, "category_version"),
      Field(f, "name"),
      Field(f, "status"),
      Field(f, "governance_record_link"),
      Field(f, "topology_view_link"),
      Field(f, "rationale"),
      ParseStringToArray(Field(f, "guidelines_library_tags")),
      ParseStringToArray(Field(f, "controls_alignments_library_tags")),
      ParseStringToArray(Field(f, "standards_library_tags")),
      Field(f, "roadmap_link"),
      Field(f, "fsa_link"),
      ParseStringToArray(Field(f, "fsa_library_tags")),
      ParseKvp(f, "observability_"),
      ParseKvp(f, "contacts_"),
      now)
  }

  /** The fields update-customer-option-set overwrites; only the id is kept. */
  function EditedOptionSet(s: OptionSet, f: Form, now: string): OptionSet {
    OptionSet(
      s.id,
      Field(f, "category_id"),
      Field(f, "customer_name"),
      Field(f, "customer_option_version"),
      Field(f, "lifecycle_status"),
      Some(Governance(FieldOr(f, "governance_status", "draft"), Field(f, "governance_approval_link"))),
      Field(f, "guidance_rationale"),
      ParseStringToArray(Field(f, "capabilities_required")),
      ParseCustomerOptions(f, "option_"),
      now)
  }

  /** `POST update-category`: rewrites the first Category whose id is the form's `id`. */
  function UpdateCategory(data: Store, f: Form, now: string): (r: Result<Store, Error>)
    ensures r.Failure? <==> !HasCategory(data, Field(f, "id"))
    ensures r.Failure? ==> r.error == CategoryNotFound
    ensures r.Success? ==>
              exists i: nat :: FirstAt(data, CategoryWith(Field(f, "id")), i)
                          && r.value == data[i := CategoryRec(EditedCategory(data[i].category, f, now))]
  {
    match FirstWhere(data, CategoryWith(Field(f, "id")))
    case None => Failure(CategoryNotFound)
    case Some(i) =>
      assert FirstAt(data, CategoryWith(Field(f, "id")), i);
      Success(data[i := CategoryRec(EditedCategory(data[i].category, f, now))])
  }

  /** `POST update-customer-option-set`: rewrites the first Option Set whose id is the
      form's `id`. */
  function UpdateOptionSet(data: Store, f: Form, now: string): (r: Result<Store, Error>)
    ensures r.Failure? <==> !HasOptionSet(data, Field(f, "id"))
    ensures r.Failure? ==> r.error == OptionSetNotFound
    ensures r.Success? ==>
              exists i: nat :: FirstAt(data, OptionSetWith(Field(f, "id")), i)
                          && r.value == data[i := OptionSetRec(EditedOptionSet(data[i].optionSet, f, now))]
  {
    match FirstWhere(data, OptionSetWith(Field(f, "id")))
    case None => Failure(OptionSetNotFound)
    case Some(i) =>
      assert FirstAt(data, OptionSetWith(Field(f, "id")), i);
      Success(data[i := OptionSetRec(EditedOptionSet(data[i].optionSet, f, now))])
  }

  // ---------------------------------------------------------------- deleting

  function NotCategory(id: string): Record -> bool {
    r => !IsCategoryWithId(r, id)
  }

  function NotChildComponent(id: string): Record -> bool {
    (r: Record) => !(r.ComponentRec? && r.component.categoryId == id)
  }

  function NotChildOptionSet(id: string): Record -> bool {
    (r: Record) => !(r.OptionSetRec? && r.optionSet.categoryId == id)
  }

  /** What delete-category removes: the Category with the id and every Component and
      Option Set whose `category_id` is the id. */
  predicate GoesWithCategory(r: Record, id: string) {
    || IsCategoryWithId(r, id)
    || (r.ComponentRec? && r.component.categoryId == id)
    || (r.OptionSetRec? && r.optionSet.categoryId == id)
  }

  function SurvivesCategory(id: string): Record -> bool {
    r => !GoesWithCategory(r, id)
  }

  /** The three passes of delete-category make one filter. */
  lemma CategoryPasses(data: Store, id: string)
    ensures Filter(Filter(Filter(data, NotCategory(id)), NotChildComponent(id)), NotChildOptionSet(id))
            == Filter(data, SurvivesCategory(id))
  {
    var both := (r: Record) => NotCategory(id)(r) && NotChildComponent(id)(r);
    FilterFilter(data, NotCategory(id), NotChildComponent(id), both);
    FilterFilter(data, both, NotChildOptionSet(id), SurvivesCategory(id));
  }

  /** `POST delete-category`: removes the Category and, in cascade, its Components and
      Option Sets. It reports success whenever anything was removed, so it also succeeds
      when only orphans pointing at a missing Category go. */
  function DeleteCategory(data: Store, id: string): (r: Result<Store, Error>)
    ensures r.Failure? <==> forall i :: 0 <= i < |data| ==> !GoesWithCategory(data[i], id)
    ensures r.Failure? ==> r.error == CategoryNotFound
    ensures r.Success? ==> r.value == Filter(data, SurvivesCategory(id))
  {
    var withoutCategory := Filter(data, NotCategory(id));
    var withoutComponents := Filter(withoutCategory, NotChildComponent(id));
    var withoutOptionSets := Filter(withoutComponents, NotChildOptionSet(id));
    CategoryPasses(data, id);
    FilterShrinks(data, SurvivesCategory(id));
    if |withoutOptionSets| < |data| then Success(withoutOptionSets) else Failure(CategoryNotFound)
  }

  function NotComponent(id: string): Record -> bool {
    r => !IsComponentWithId(r, id)
  }

  function NotOptionSet(id: string): Record -> bool {
    r => !IsOptionSetWithId(r, id)
  }

  /** `POST delete-component`: removes every Component with the id. */
  function DeleteComponent(data: Store, id: string): (r: Result<Store, Error>)
    ensures r.Failure? <==> !HasComponent(data, id)
    ensures r.Failure? ==> r.error == ComponentNotFound
    ensures r.Success? ==> r.value == Filter(data, NotComponent(id))
  {
    var kept := Filter(data, NotComponent(id));
    FilterShrinks(data, NotComponent(id));
    if |kept| < |data| then Success(kept) else Failure(ComponentNotFound)
  }

  /** `POST delete-customer-option-set`: removes every Option Set with the id. */
  function DeleteOptionSet(data: Store, id: string): (r: Result<Store, Error>)
    ensures r.Failure? <==> !HasOptionSet(data, id)
    ensures r.Failure? ==> r.error == OptionSetNotFound
    ensures r.Success? ==> r.value == Filter(data, NotOptionSet(id))
  {
    var kept := Filter(data, NotOptionSet(id));
    FilterShrinks(data, NotOptionSet(id));
    if |kept| < |data| then Success(kept) else Failure(OptionSetNotFound)
  }

  function OtherVersion(version: string): Version -> bool {
    (v: Version) => v.version != version
  }

  /** `POST component/:componentId/version/:versionString/delete`: removes every version
      with the string from the first Component with the id. */
  function DeleteVersion(data: Store, componentId: string, version: string, now: string): (r: Result<Store, Error>)
    ensures r == Failure(ComponentNotFound) <==> !HasComponent(data, componentId)
    ensures r.Failure? ==> r.error == ComponentNotFound || r.error == VersionNotFound
    ensures r.Success? ==>
              exists i: nat :: FirstAt(data, ComponentWith(componentId), i)
                          && (exists a :: 0 <= a < |data[i].component.versions| && data[i].component.versions[a].version == version)
                          && r.value == data[i := ComponentRec(data[i].component.(
                                          versions := Filter(data[i].component.versions, OtherVersion(version)),
                                          lastUpdated := now))]
    ensures r == Failure(VersionNotFound) ==>
              exists i: nat :: FirstAt(data, ComponentWith(componentId), i)
                          && forall a :: 0 <= a < |data[i].component.versions| ==> data[i].component.versions[a].version != version
  {
    match FirstWhere(data, ComponentWith(componentId))
    case None => Failure(ComponentNotFound)
    case Some(i) =>
      var k := data[i].component;
      var kept := Filter(k.versions, OtherVersion(version));
      FilterShrinks(k.versions, OtherVersion(version));
      assert FirstAt(data, ComponentWith(componentId), i);
      if |kept| < |k.versions| then Success(data[i := ComponentRec(k.(versions := kept, lastUpdated := now))])
      else Failure(VersionNotFound)
  }
}

=== FILE: item_facts.dfy ===
/** How the item routes of app.js relate: moving an item up and back down restores the
    list, removing the item just added restores it, and edits and removals are
    idempotent. */
module ItemFacts {
  import opened Wrappers
  import opened Text
  import opened Seqs
  import opened Forms
  import opened Items

  /** An item moved up and then down again is back where it was. The item keeps its id,
      so the second `findIndex` finds it one place higher; no uniqueness is needed. */
  lemma MoveUpThenDown(data: seq<Item>, id: string, i: nat)
    requires FoundAt(data, id, i) && i > 0
    ensures MoveItem(MoveItem(data, id, "up"), id, "down") == data
  {
    var once := MoveItem(data, id, "up");
    assert FoundAt(once, id, i - 1) by {
      forall j | 0 <= j < i - 1 ensures once[j].id != id {
        assert once[j] == data[j];
      }
    }
    var twice := MoveItem(once, id, "down");
    assert twice == data;
  }

  /** With distinct ids, an item moved down and then up again is back where it was. */
  lemma MoveDownThenUp(data: seq<Item>, id: string, i: nat)
    requires DistinctIds(data)
    requires FoundAt(data, id, i) && i < |data| - 1
    ensures MoveItem(MoveItem(data, id, "down"), id, "up") == data
  {
    var once := MoveItem(data, id, "down");
    assert FoundAt(once, id, i + 1) by {
      forall j | 0 <= j < i + 1 ensures once[j].id != id {
        if j == i {
          assert once[j] == data[i + 1];
        } else {
          assert once[j] == data[j];
        }
      }
    }
    var twice := MoveItem(once, id, "up");
    assert twice == data;
  }

  /** Without distinct ids moving down and up need not restore the order: when the
      item below shares the id, `findIndex` then finds that one, and 'up' moves it
      instead (or, at the top, does nothing). */
  lemma MoveDownThenUpWithSharedId(data: seq<Item>, id: string, i: nat)
    requires FoundAt(data, id, i) && i + 1 < |data| && data[i + 1].id == id
    ensures var once := Swap(data, i, i + 1);
            MoveItem(MoveItem(data, id, "down"), id, "up")
              == if i == 0 then once else Swap(once, i, i - 1)
  {
    MoveDownAt(data, id, i);
    var once := Swap(data, i, i + 1);
    assert FoundAt(once, id, i) by {
      forall j | 0 <= j < i ensures once[j].id != id {
        assert once[j] == data[j];
      }
    }
    MoveUpAt(once, id, i);
  }

  /** So with two different items sharing an id, down then up changes the list. */
  lemma SharedIdMoveChangesList(data: seq<Item>, id: string, i: nat)
    requires FoundAt(data, id, i) && i + 1 < |data| && data[i + 1].id == id
    requires data[i] != data[i + 1]
    ensures MoveItem(MoveItem(data, id, "down"), id, "up") != data
  {
    MoveDownThenUpWithSharedId(data, id, i);
    var once := Swap(data, i, i + 1);
    if i == 0 {
      assert once[0] != data[0];
    } else {
      var twice := Swap(once, i, i - 1);
      assert twice[i - 1] == data[i + 1] && twice[i] == data[i - 1] && twice[i + 1] == data[i];
    }
  }

  /** Removing the item just added, by its id, restores the list when no earlier item
      had that id. */
  lemma DeleteItemUndoesAdd(data: seq<Item>, f: Form, clock: nat)
    requires forall j :: 0 <= j < |data| ==> data[j].id != NewItemId(|data|, clock)
    ensures DeleteItem(AddItem(data, f, clock), NewItemId(|data|, clock)) == data
  {
    var id := NewItemId(|data|, clock);
    var added := AddItem(data, f, clock);
    assert added == data + [added[|data|]];
    forall j | 0 <= j < |data| ensures OtherId(id)(data[j]) { }
    FilterConcat(data, [added[|data|]], OtherId(id));
    FilterKeepsAll(data, OtherId(id));
    FilterNone([added[|data|]], OtherId(id));
  }

  /** One digit-append step with the decimal strings given by name. */
  lemma AppendDigit(a: nat, d: nat, before: string, c: char)
    requires a >= 1 && d < 10 && DigitChar(d) == c
    requires DecimalString(a) == before
    ensures DecimalString(10 * a + d) == before + [c]
  {
    DecimalStringDigit(a, d);
  }

  /** The decimal string of `10000 * m + 1234` ends in the four digits `1234`. */
  lemma DecimalEnds1234(m: nat)
    ensures DecimalString(10000 * m + 1234) == (if m == 0 then "" else DecimalString(m)) + "1234"
  {
    var head := if m == 0 then "" else DecimalString(m);
    var a1 := 10 * m + 1;
    assert DecimalString(a1) == head + "1" by {
      if m > 0 {
        AppendDigit(m, 1, head, '1');
      }
    }
    AppendDigit(a1, 2, head + "1", '2');
    assert head + "1" + ['2'] == head + "12";
    AppendDigit(10 * a1 + 2, 3, head + "12", '3');
    assert head + "12" + ['3'] == head + "123";
    AppendDigit(10 * (10 * a1 + 2) + 3, 4, head + "123", '4');
    assert head + "123" + ['4'] == head + "1234";
    assert 10 * (10 * (10 * a1 + 2) + 3) + 4 == 10000 * m + 1234;
  }

  /** The last four digits of a clock reading whose value ends in 1234. */
  lemma ClockEndsIn1234(clock: nat)
    requires clock % 10000 == 1234
    ensures TakeLast(DecimalString(clock), 4) == "1234"
  {
    var m := clock / 10000;
    assert clock == 10000 * m + 1234;
    DecimalEnds1234(m);
  }

  /** The new id is not always fresh: with one item `item21234` in the list, an add at
      any clock reading ending in 1234 gives the same id again. */
  lemma AddItemCanRepeatAnId(f: Form, clock: nat)
    requires clock % 10000 == 1234
    ensures var data := [Item("item21234", "t", "")];
            !DistinctIds(AddItem(data, f, clock))
  {
    var data := [Item("item21234", "t", "")];
    assert DecimalString(2) == "2";
    ClockEndsIn1234(clock);
    assert NewItemId(1, clock) == "item21234";
    var r := AddItem(data, f, clock);
    assert r[0].id == r[1].id;
  }

  /** Removing by id twice removes nothing the second time. */
  lemma DeleteItemIdempotent(data: seq<Item>, id: string)
    ensures DeleteItem(DeleteItem(data, id), id) == DeleteItem(data, id)
  {
    var once := DeleteItem(data, id);
    forall j | 0 <= j < |once| ensures OtherId(id)(once[j]) {
      assert once[j] in once;
    }
    FilterKeepsAll(once, OtherId(id));
  }

  /** Submitting the same edit twice changes nothing the second time. */
  lemma UpdateItemIdempotent(data: seq<Item>, id: string, title: string, description: string)
    ensures UpdateItem(UpdateItem(data, id, title, description), id, title, description)
            == UpdateItem(data, id, title, description)
  {
    var once := UpdateItem(data, id, title, description);
    match FindIndex(data, id)
    case None =>
    case Some(i) =>
      assert FoundAt(once, id, i) by {
        forall j | 0 <= j < i ensures once[j].id != id {
          assert once[j] == data[j];
        }
      }
      FoundAtIsFindIndex(once, id, i);
      assert once[i := once[i].(title := title, description := description)] == once;
  }
}

=== FILE: items.dfy ===
/** The item list of app.js: the data file is a sequence of items, each with an id, a
    title and a description, and the four POST routes add, edit, remove and reorder
    them. */
module Items {
  import opened Wrappers
  import opened Text
  import opened Seqs
  import opened Forms

  datatype Item = Item(id: string, title: string, description: string)

  function WithId(id: string): Item -> bool {
    (x: Item) => x.id == id
  }

  function OtherId(id: string): Item -> bool {
    (x: Item) => x.id != id
  }

  /** `i` is where `findIndex(item => item.id === id)` stops. */
  predicate FoundAt(data: seq<Item>, id: string, i: nat) {
    i < |data| && data[i].id == id && forall j :: 0 <= j < i ==> data[j].id != id
  }

  /** No two items share an id. */
  predicate DistinctIds(data: seq<Item>) {
    forall a, b :: 0 <= a < b < |data| ==> data[a].id != data[b].id
  }

  /** `findIndex`: the first position of an item with the id, if any. */
  function FindIndex(data: seq<Item>, id: string): (r: Option<nat>)
    ensures r.None? <==> forall j :: 0 <= j < |data| ==> data[j].id != id
    ensures r.Some? ==> FoundAt(data, id, r.value)
  {
    var r := FirstWhere(data, WithId(id));
    assert r.Some? ==> forall j :: 0 <= j < r.value ==> !WithId(id)(data[j]);
    r
  }

  lemma FoundAtIsFindIndex(data: seq<Item>, id: string, i: nat)
    requires FoundAt(data, id, i)
    ensures FindIndex(data, id) == Some(i)
  {
  }

  /** `findIndex` stops at one place only. */
  lemma FoundAtUnique(data: seq<Item>, id: string, i: nat)
    requires FoundAt(data, id, i)
    ensures forall k: nat :: FoundAt(data, id, k) ==> k == i
  {
  }

  /** The id `/add` gives: `'item' + (data.length + 1 + Date.now().toString().slice(-4))`.
      The number `data.length + 1` meets a string, so JavaScript concatenates: the
      count in decimal followed by the last four digits of the clock. */
  function NewItemId(count: nat, clock: nat): (r: string)
    ensures 6 <= |r| && r[..4] == "item" && AllDigits(r[4..])
  {
    var tail := DecimalString(count + 1) + TakeLast(DecimalString(clock), 4);
    assert AllDigits(tail);
    var r := "item" + tail;
    assert r[4..] == tail;
    r
  }

  /** The leading digits of a new id are the item count plus one, read back. */
  lemma NewItemIdCount(count: nat, clock: nat)
    ensures var r := NewItemId(count, clock);
            var n := DecimalString(count + 1);
            r[4..4 + |n|] == n && DecimalValue(r[4..4 + |n|]) == count + 1
  {
    var n := DecimalString(count + 1);
    var r := NewItemId(count, clock);
    assert r[4..4 + |n|] == n;
    DecimalRoundTrip(count + 1);
  }

  /** `POST /add`: appends an item; a missing title becomes 'New Item'. */
  function AddItem(data: seq<Item>, f: Form, clock: nat): (r: seq<Item>)
    ensures |r| == |data| + 1 && r[..|data|] == data
    ensures r[|data|].id == NewItemId(|data|, clock)
    ensures r[|data|].title != ""
    ensures r[|data|].title == (if Field(f, "title") == "" then "New Item" else Field(f, "title"))
    ensures r[|data|].description == Field(f, "description")
  {
    data + [Item(NewItemId(|data|, clock), FieldOr(f, "title", "New Item"), Field(f, "description"))]
  }

  /** `POST /update`: overwrites the title and description of the first item with the
      id; the list is unchanged when there is none. */
  function UpdateItem(data: seq<Item>, id: string, title: string, description: string): (r: seq<Item>)
    ensures |r| == |data|
    ensures (forall j :: 0 <= j < |data| ==> data[j].id != id) ==> r == data
    ensures forall i: nat :: FoundAt(data, id, i) ==>
              && r[i] == Item(id, title, description)
              && forall j :: 0 <= j < |data| && j != i ==> r[j] == data[j]
  {
    match FindIndex(data, id)
    case None => data
    case Some(i) =>
      FoundAtUnique(data, id, i);
      data[i := data[i].(title := title, description := description)]
  }

  /** Filtering by id keeps exactly the items with another id. */
  lemma KeepsOthers(data: seq<Item>, id: string)
    ensures forall x :: x in Filter(data, OtherId(id)) <==> x in data && x.id != id
  {
    var r := Filter(data, OtherId(id));
    forall x | x in data && x.id != id ensures x in r {
      var i :| 0 <= i < |data| && data[i] == x;
      assert OtherId(id)(data[i]);
    }
    forall x | x in r ensures x in data && x.id != id {
      var i :| 0 <= i < |r| && r[i] == x;
      assert OtherId(id)(r[i]);
    }
  }

  /** `POST /delete`: keeps every item whose id differs. */
  function DeleteItem(data: seq<Item>, id: string): (r: seq<Item>)
    ensures |r| <= |data|
    ensures forall x :: x in r <==> x in data && x.id != id
  {
    KeepsOthers(data, id);
    Filter(data, OtherId(id))
  }

  /** Removal keeps the order of what remains: deleting from two lists joined is
      deleting from each and joining the rests. */
  lemma DeleteItemConcat(a: seq<Item>, b: seq<Item>, id: string)
    ensures DeleteItem(a + b, id) == DeleteItem(a, id) + DeleteItem(b, id)
  {
    FilterConcat(a, b, OtherId(id));
  }

  /** A single item survives exactly when its id differs. */
  lemma DeleteItemSingle(x: Item, id: string)
    ensures DeleteItem([x], id) == if x.id != id then [x] else []
  {
    FilterConcat([], [x], OtherId(id));
    assert [] + [x] == [x];
  }

  /** The list with the items at `a` and `b` exchanged. */
  function Swap(data: seq<Item>, a: nat, b: nat): (r: seq<Item>)
    requires a < |data| && b < |data|
    ensures |r| == |data| && r[a] == data[b] && r[b] == data[a]
    ensures forall j :: 0 <= j < |data| && j != a && j != b ==> r[j] == data[j]
  {
    data[a := data[b]][b := data[a]]
  }

  /** Exchanging two items keeps the same items. */
  lemma SwapIsPermutation(data: seq<Item>, a: nat, b: nat)
    requires a < |data| && b < |data|
    ensures multiset(Swap(data, a, b)) == multiset(data)
  {
    var m := data[a := data[b]];
    assert multiset(m) == multiset(data) - multiset{data[a]} + multiset{data[b]};
    assert multiset(m[b := data[a]]) == multiset(m) - multiset{m[b]} + multiset{data[a]};
  }

  /** `POST /move`: exchanges the first item with the id with its neighbour above
      ('up') or below ('down'); at the ends, for an unknown id or for any other
      direction the order is unchanged. */
  function MoveItem(data: seq<Item>, id: string, direction: string): (r: seq<Item>)
    ensures |r| == |data| && multiset(r) == multiset(data)
    ensures (direction != "up" && direction != "down") ==> r == data
    ensures (forall j :: 0 <= j < |data| ==> data[j].id != id) ==> r == data
    ensures forall i: nat :: FoundAt(data, id, i) && direction == "up" && i > 0 ==>
              && r[i - 1] == data[i] && r[i] == data[i - 1]
              && forall j :: 0 <= j < |data| && j != i && j != i - 1 ==> r[j] == data[j]
    ensures forall i: nat :: FoundAt(data, id, i) && direction == "down" && i < |data| - 1 ==>
              && r[i + 1] == data[i] && r[i] == data[i + 1]
              && forall j :: 0 <= j < |data| && j != i && j != i + 1 ==> r[j] == data[j]
    ensures forall i: nat :: FoundAt(data, id, i) && direction == "up" && i == 0 ==> r == data
    ensures forall i: nat :: FoundAt(data, id, i) && direction == "down" && i == |data| - 1 ==> r == data
  {
    match FindIndex(data, id)
    case None => data
    case Some(i) =>
      FoundAtUnique(data, id, i);
      MoveAt(data, i, direction)
  }

  /** The move applied to the item at `i`: exchanged with its neighbour above ('up') or
      below ('down'), and left in place at the ends or for any other direction. */
  function MoveAt(data: seq<Item>, i: nat, direction: string): (r: seq<Item>)
    requires i < |data|
    ensures |r| == |data| && multiset(r) == multiset(data)
    ensures (direction != "up" && direction != "down") ==> r == data
    ensures direction == "up" && i > 0 ==>
              && r[i - 1] == data[i] && r[i] == data[i - 1]
              && forall j :: 0 <= j < |data| && j != i && j != i - 1 ==> r[j] == data[j]
    ensures direction == "down" && i < |data| - 1 ==>
              && r[i + 1] == data[i] && r[i] == data[i + 1]
              && forall j :: 0 <= j < |data| && j != i && j != i + 1 ==> r[j] == data[j]
    ensures direction == "up" && i == 0 ==> r == data
    ensures direction == "down" && i == |data| - 1 ==> r == data
  {
    if (direction == "up" && i > 0) || (direction == "down" && i < |data| - 1) then
      var j := if direction == "up" then i - 1 else i + 1;
      SwapIsPermutation(data, i, j);
      Swap(data, i, j)
    else data
  }

  /** 'down' at the first item with the id, when one sits below it, is that swap. */
  lemma MoveDownAt(data: seq<Item>, id: string, i: nat)
    requires FoundAt(data, id, i) && i + 1 < |data|
    ensures MoveItem(data, id, "down") == Swap(data, i, i + 1)
  {
    FoundAtIsFindIndex(data, id, i);
  }

  /** 'up' at the first item with the id is the swap with the item above it, or
      nothing at the top. */
  lemma MoveUpAt(data: seq<Item>, id: string, i: nat)
    requires FoundAt(data, id, i)
    ensures MoveItem(data, id, "up") == if i == 0 then data else Swap(data, i, i - 1)
  {
    FoundAtIsFindIndex(data, id, i);
  }
}

=== FILE: records.dfy ===
/** The records of the design data file (`mydata.json`): a flat array of Categories,
    Components and Customer Option Sets, told apart by their `type` field. A child
    points to its Category through `category_id`. Fields the JSON may omit are the
    empty string or the empty list here; `governance` may be missing altogether. The
    keyword search text of the server renders a missing key/value entry part or option
    field as `undefined` rather than as the empty string; that difference is not modelled. */
module Records {
  import opened Wrappers

  /** An entry of `observability_kvp`, `contacts_kvp` or `observability_links`. */
  datatype Kvp = Kvp(key: string, value: string)

  /** An entry of `arr_flags` or `risk_flags`. */
  datatype FlagLink = FlagLink(link: string)

  /** An entry of a version's `deployment_locations`. */
  datatype Location = Location(site: string, zone: string, segment: string, country: string)

  /** The `governance` object of a version or an option set. */
  datatype Governance = Governance(status: string, approvalLink: string)

  datatype Category = Category(
    id: string,
    categoryVersion: string,
    name: string,
    status: string,
    governanceRecordLink: string,
    topologyViewLink: string,
    rationale: string,
    guidelinesTags: seq<string>,
    controlsAlignmentsTags: seq<string>,
    standardsLibraryTags: seq<string>,
    roadmapLink: string,
    fsaLink: string,
    fsaLibraryTags: seq<string>,
    observabilityKvp: seq<Kvp>,
    contactsKvp: seq<Kvp>,
    lastUpdated: string)

  /** One entry of a component's `component_versions`. */
  datatype Version = Version(
    version: string,
    lifecycleStatus: string,
    governance: Option<Governance>,
    topologyDiagramLink: string,
    deploymentLocations: seq<Location>,
    operationalGuidelinesLink: string,
    standardsTags: seq<string>,
    observabilityLinks: seq<Kvp>,
    baseConfigSourceLink: string,
    supportedCapabilities: seq<string>)

  datatype Component = Component(
    id: string,
    categoryId: string,
    name: string,
    description: string,
    componentType: string,
    componentLabel: string,
    arrFlags: seq<FlagLink>,
    riskFlags: seq<FlagLink>,
    lastUpdated: string,
    versions: seq<Version>)

  /** One entry of an option set's `options`. */
  datatype CustomerOption = CustomerOption(optionName: string, configBlockPseudocode: string)

  datatype OptionSet = OptionSet(
    id: string,
    categoryId: string,
    customerName: string,
    customerOptionVersion: string,
    lifecycleStatus: string,
    governance: Option<Governance>,
    guidanceRationale: string,
    capabilitiesRequired: seq<string>,
    options: seq<CustomerOption>,
    lastUpdated: string)

  /** One element of the data file, discriminated by `type`; `OtherRec` stands for any
      element whose `type` is none of the three the application knows. */
  datatype Record =
    | CategoryRec(category: Category)
    | ComponentRec(component: Component)
    | OptionSetRec(optionSet: OptionSet)
    | OtherRec(id: string)

  /** The whole data file. */
  type Store = seq<Record>

  predicate IsCategoryWithId(r: Record, id: string) {
    r.CategoryRec? && r.category.id == id
  }

  predicate IsComponentWithId(r: Record, id: string) {
    r.ComponentRec? && r.component.id == id
  }

  predicate IsOptionSetWithId(r: Record, id: string) {
    r.OptionSetRec? && r.optionSet.id == id
  }
}

=== FILE: scans.dfy ===
/** A left-to-right pass over a list that appends, for each element, what a step
    function returns given the results so far: the shape of a `forEach` loop that
    `push`es into a result array. The facts here hold whatever the step does, as long
    as it appends at most one result per element. */
module Scans {

  /** The results after the first `n` elements have been processed. */
  function Scan<E, H>(es: seq<E>, step: (E, seq<H>) -> seq<H>, n: nat): seq<H>
    requires n <= |es|
  {
    if n == 0 then []
    else
      var acc := Scan(es, step, n - 1);
      acc + step(es[n - 1], acc)
  }

  /** The step appends at most one result per element. */
  ghost predicate AtMostOne<E(!new), H(!new)>(step: (E, seq<H>) -> seq<H>) {
    forall e, acc :: |step(e, acc)| <= 1
  }

  /** The position of the element each result of `Scan(es, step, n)` comes from. */
  ghost function Origins<E, H>(es: seq<E>, step: (E, seq<H>) -> seq<H>, n: nat): seq<nat>
    requires n <= |es|
  {
    if n == 0 then []
    else
      Origins(es, step, n - 1) + (if |step(es[n - 1], Scan(es, step, n - 1))| == 0 then [] else [n - 1])
  }

  /** The element at position `o` appends exactly `h`, given the results before it. */
  ghost predicate Emits<E, H>(es: seq<E>, step: (E, seq<H>) -> seq<H>, o: nat, h: H)
    requires o < |es|
  {
    var st := step(es[o], Scan(es, step, o));
    |st| == 1 && st[0] == h
  }

  /** A result present after `m` elements is still present after `n >= m`. */
  lemma {:induction false} ScanKeeps<E, H>(es: seq<E>, step: (E, seq<H>) -> seq<H>, m: nat, n: nat)
    requires m <= n <= |es|
    ensures forall h :: h in Scan(es, step, m) ==> h in Scan(es, step, n)
    decreases n - m
  {
    if m < n {
      ScanKeeps(es, step, m, n - 1);
      assert Scan(es, step, n) == Scan(es, step, n - 1) + step(es[n - 1], Scan(es, step, n - 1));
    }
  }

  /** What one element appends stays in every longer scan. */
  lemma ScanKeepsStep<E, H>(es: seq<E>, step: (E, seq<H>) -> seq<H>, i: nat, n: nat, h: H)
    requires i < n <= |es| && h in step(es[i], Scan(es, step, i))
    ensures h in Scan(es, step, n)
  {
    ScanKeeps(es, step, i + 1, n);
  }

  /** Each result has one origin, the origins are increasing positions below `n`, and
      the element at each origin appends exactly that result. */
  lemma {:induction false} ScanTrace<E(!new), H(!new)>(es: seq<E>, step: (E, seq<H>) -> seq<H>, n: nat)
    requires n <= |es| && AtMostOne(step)
    ensures var r, idx := Scan(es, step, n), Origins(es, step, n);
            && |r| <= n && |idx| == |r|
            && (forall m :: 0 <= m < |idx| ==> idx[m] < n && Emits(es, step, idx[m], r[m]))
            && (forall m1, m2 :: 0 <= m1 < m2 < |idx| ==> idx[m1] < idx[m2])
  {
    if n > 0 {
      ScanTrace(es, step, n - 1);
      var acc, idx := Scan(es, step, n - 1), Origins(es, step, n - 1);
      var st := step(es[n - 1], acc);
      var r := Scan(es, step, n);
      assert r == acc + st;
      assert |st| <= 1;
      if |st| == 1 {
        var idx' := Origins(es, step, n);
        assert idx' == idx + [n - 1];
        forall m | 0 <= m < |idx'|
          ensures idx'[m] < n && Emits(es, step, idx'[m], r[m])
        {
          if m < |idx| {
            assert idx'[m] == idx[m] && r[m] == acc[m];
          } else {
            assert r[m] == st[0];
          }
        }
      }
    }
  }

  /** Every result the element at position `i` appends satisfies `p`. */
  ghost predicate AppendsOnly<E, H>(es: seq<E>, step: (E, seq<H>) -> seq<H>, i: nat, p: H -> bool)
    requires i < |es|
  {
    var st := step(es[i], Scan(es, step, i));
    forall m :: 0 <= m < |st| ==> p(st[m])
  }

  /** When every step appends only results satisfying `p`, every result satisfies `p`. */
  lemma {:induction false} ScanAll<E, H>(es: seq<E>, step: (E, seq<H>) -> seq<H>, n: nat, p: H -> bool)
    requires n <= |es|
    requires forall i :: 0 <= i < n ==> AppendsOnly(es, step, i, p)
    ensures forall m :: 0 <= m < |Scan(es, step, n)| ==> p(Scan(es, step, n)[m])
  {
    if n > 0 {
      ScanAll(es, step, n - 1, p);
      var acc := Scan(es, step, n - 1);
      var st := step(es[n - 1], acc);
      assert AppendsOnly(es, step, n - 1, p);
      assert Scan(es, step, n) == acc + st;
      forall m | 0 <= m < |acc + st| ensures p((acc + st)[m]) {
        if m < |acc| {
          assert (acc + st)[m] == acc[m];
        } else {
          assert (acc + st)[m] == st[m - |acc|];
        }
      }
    }
  }

  /** Both step functions append the same at position `i`, given their own results so far. */
  ghost predicate AgreeAt<E, H>(es: seq<E>, step: (E, seq<H>) -> seq<H>, other: (E, seq<H>) -> seq<H>, i: nat)
    requires i < |es|
  {
    step(es[i], Scan(es, step, i)) == other(es[i], Scan(es, other, i))
  }

  /** Two step functions that agree at every position produce the same results. */
  lemma {:induction false} ScanAgree<E, H>(es: seq<E>, step: (E, seq<H>) -> seq<H>, other: (E, seq<H>) -> seq<H>, n: nat)
    requires n <= |es|
    requires forall i :: 0 <= i < n ==> AgreeAt(es, step, other, i)
    ensures Scan(es, step, n) == Scan(es, other, n)
  {
    if n > 0 {
      ScanAgree(es, step, other, n - 1);
      assert AgreeAt(es, step, other, n - 1);
    }
  }

  /** The element at position `i` appends nothing. */
  ghost predicate AppendsNothing<E, H>(es: seq<E>, step: (E, seq<H>) -> seq<H>, i: nat)
    requires i < |es|
  {
    |step(es[i], Scan(es, step, i))| == 0
  }

  /** When no step appends anything, there are no results. */
  lemma {:induction false} ScanNone<E, H>(es: seq<E>, step: (E, seq<H>) -> seq<H>, n: nat)
    requires n <= |es|
    requires forall i :: 0 <= i < n ==> AppendsNothing(es, step, i)
    ensures Scan(es, step, n) == []
  {
    if n > 0 {
      ScanNone(es, step, n - 1);
      assert AppendsNothing(es, step, n - 1);
    }
  }
}

=== FILE: search.dfy ===
/** The search behind `GET /search` (`filterData` in server.js): walk the records in
    order, emit each Category with the Components and Customer Option Sets under it
    that match the query, and emit matching Components and Customer Option Sets at
    top level unless a Category emitted earlier already nests them.

    The query is the flat map of URL parameters. A parameter takes part in matching
    only when it is a non-empty string; two rules look at which keys are present
    instead, whatever their values: the version-key test that admits a Component on
    its own criteria, and the category-only rule. */
module Search {
  import opened Wrappers
  import opened Text
  import opened Seqs
  import opened Records
  import opened Scans

  type Query = map<string, string>

  /** The value of a parameter, `''` when it is absent. */
  function Param(q: Query, key: string): string {
    if key in q then q[key] else ""
  }

  /** The parameter is truthy: present and non-empty. */
  predicate Given(q: Query, key: string) {
    key in q && q[key] != ""
  }

  /** `q[key] && field.toLowerCase().includes(q[key].toLowerCase())`. */
  predicate Includes(q: Query, key: string, field: string) {
    Given(q, key) && ContainsIgnoringCase(field, Param(q, key))
  }

  /** `q[key] && field.toLowerCase() === q[key].toLowerCase()`. */
  predicate EqualsParam(q: Query, key: string, field: string) {
    Given(q, key) && EqualsIgnoringCase(field, Param(q, key))
  }

  /** `q[key] ? field.toLowerCase().includes(q[key].toLowerCase()) : true`. */
  predicate IncludesIfGiven(q: Query, key: string, field: string) {
    Given(q, key) ==> ContainsIgnoringCase(field, Param(q, key))
  }

  /** `q[key] && g && g.status.toLowerCase() === q[key].toLowerCase()`. */
  predicate GovernanceEquals(q: Query, key: string, g: Option<Governance>) {
    g.Some? && EqualsParam(q, key, g.value.status)
  }

  /** `q[key] && tags.some(t => t.toLowerCase().includes(q[key].toLowerCase()))`. */
  predicate AnyIncludes(q: Query, key: string, tags: seq<string>) {
    Given(q, key) && Any(tags, t => ContainsIgnoringCase(t, Param(q, key)))
  }

  /** The keys whose mere presence stops a Component from being admitted on its own
      criteria alone; `keyword` is not among them. */
  const VersionKeys: set<string> :=
    {"version", "lifecycleStatus", "governanceStatus", "searchText", "standardsTag", "capability",
     "site", "zone", "segment", "country", "obsKey", "obsValue"}

  /** The keys whose presence switches the category-only rule off. */
  const ChildKeys: set<string> :=
    {"componentName", "componentType", "componentLabel", "version", "lifecycleStatus",
     "governanceStatus", "searchText", "standardsTag", "capability", "site", "zone", "segment",
     "country", "obsKey", "obsValue", "keyword", "arrFlag", "riskFlag", "customerName",
     "customerOptionVersion", "customerLifecycleStatus", "customerGovernanceStatus",
     "customerCapabilityRequired", "optionName", "pseudocodeKeyword"}

  // ---------------------------------------------------------------- searchable text

  function KvpText(k: Kvp): string {
    k.key + " " + k.value
  }

  function LocationText(l: Location): string {
    l.site + " " + l.zone + " " + l.segment + " " + l.country
  }

  function OptionText(o: CustomerOption): string {
    o.optionName + " " + o.configBlockPseudocode
  }

  /** `governance?.status || ''`. */
  function GovernanceStatus(g: Option<Governance>): string {
    if g.Some? then g.value.status else ""
  }

  /** The text `keyword` and `searchText` are looked up in, for a Category. */
  function CategoryText(c: Category): string {
    c.name + " " + c.rationale + " " + c.status + " "
    + c.governanceRecordLink + " " + c.topologyViewLink + " "
    + c.roadmapLink + " " + c.fsaLink + " "
    + Join(c.guidelinesTags, " ") + " "
    + Join(c.controlsAlignmentsTags, " ") + " "
    + Join(c.standardsLibraryTags, " ") + " "
    + Join(c.fsaLibraryTags, " ") + " "
    + Join(Map(c.observabilityKvp, KvpText), " ") + " "
    + Join(Map(c.contactsKvp, KvpText), " ")
  }

  /** The text `keyword` and `searchText` are looked up in, for a Component. */
  function ComponentText(c: Component): string {
    c.name + " " + c.description + " " + c.componentType + " " + c.componentLabel
  }

  /** The text `keyword` and `searchText` are looked up in, for a version. */
  function VersionText(v: Version): string {
    v.version + " " + v.lifecycleStatus + " " + GovernanceStatus(v.governance) + " "
    + v.topologyDiagramLink + " " + v.operationalGuidelinesLink + " " + v.baseConfigSourceLink + " "
    + Join(v.standardsTags, " ") + " "
    + Join(v.supportedCapabilities, " ") + " "
    + Join(Map(v.deploymentLocations, LocationText), " ") + " "
    + Join(Map(v.observabilityLinks, KvpText), " ")
  }

  /** The text `keyword` and `searchText` are looked up in, for a Customer Option Set. */
  function OptionSetText(s: OptionSet): string {
    s.customerName + " " + s.guidanceRationale + " "
    + Join(s.capabilitiesRequired, " ") + " "
    + Join(Map(s.options, OptionText), " ")
  }

  // ---------------------------------------------------------------- matching, level by level

  /** Criteria are OR-combined: any one that holds makes the Category match. */
  predicate CategoryMatch(q: Query, c: Category) {
    || Includes(q, "categoryName", c.name)
    || EqualsParam(q, "categoryStatus", c.status)
    || Includes(q, "keyword", CategoryText(c))
    || Includes(q, "searchText", CategoryText(c))
  }

  /** The Component's own criteria; its versions are judged separately. */
  predicate ComponentMatch(q: Query, c: Component) {
    || Includes(q, "componentName", c.name)
    || EqualsParam(q, "componentType", c.componentType)
    || EqualsParam(q, "componentLabel", c.componentLabel)
    || (Param(q, "arrFlag") == "true" && |c.arrFlags| > 0)
    || (Param(q, "riskFlag") == "true" && |c.riskFlags| > 0)
    || Includes(q, "keyword", ComponentText(c))
    || Includes(q, "searchText", ComponentText(c))
  }

  /** One location satisfies every supplied location part. */
  predicate LocationFits(q: Query, l: Location) {
    && IncludesIfGiven(q, "site", l.site)
    && IncludesIfGiven(q, "zone", l.zone)
    && IncludesIfGiven(q, "segment", l.segment)
    && IncludesIfGiven(q, "country", l.country)
  }

  /** Some location part is supplied and a single deployment location fits them all. */
  predicate LocationCriterion(q: Query, v: Version) {
    && (Given(q, "site") || Given(q, "zone") || Given(q, "segment") || Given(q, "country"))
    && Any(v.deploymentLocations, l => LocationFits(q, l))
  }

  /** One observability link satisfies both supplied parts. */
  predicate LinkFits(q: Query, k: Kvp) {
    IncludesIfGiven(q, "obsKey", k.key) && IncludesIfGiven(q, "obsValue", k.value)
  }

  /** `obsKey` or `obsValue` is supplied and a single observability link fits both. */
  predicate ObservabilityCriterion(q: Query, v: Version) {
    && (Given(q, "obsKey") || Given(q, "obsValue"))
    && Any(v.observabilityLinks, k => LinkFits(q, k))
  }

  predicate VersionMatch(q: Query, v: Version) {
    || Includes(q, "version", v.version)
    || EqualsParam(q, "lifecycleStatus", v.lifecycleStatus)
    || GovernanceEquals(q, "governanceStatus", v.governance)
    || Includes(q, "keyword", VersionText(v))
    || Includes(q, "searchText", VersionText(v))
    || AnyIncludes(q, "standardsTag", v.standardsTags)
    || AnyIncludes(q, "capability", v.supportedCapabilities)
    || LocationCriterion(q, v)
    || ObservabilityCriterion(q, v)
  }

  predicate OptionSetMatch(q: Query, s: OptionSet) {
    || Includes(q, "customerName", s.customerName)
    || Includes(q, "customerOptionVersion", s.customerOptionVersion)
    || EqualsParam(q, "customerLifecycleStatus", s.lifecycleStatus)
    || GovernanceEquals(q, "customerGovernanceStatus", s.governance)
    || AnyIncludes(q, "customerCapabilityRequired", s.capabilitiesRequired)
    || (Given(q, "optionName")
        && Any(s.options, (o: CustomerOption) => ContainsIgnoringCase(o.optionName, Param(q, "optionName"))))
    || (Given(q, "pseudocodeKeyword")
        && Any(s.options, (o: CustomerOption) => o.configBlockPseudocode != ""
                               && ContainsIgnoringCase(o.configBlockPseudocode, Param(q, "pseudocodeKeyword"))))
    || Includes(q, "keyword", OptionSetText(s))
    || Includes(q, "searchText", OptionSetText(s))
  }

  // ---------------------------------------------------------------- components and their versions

  /** `VersionMatch` for a fixed query, as a function value. */
  function VersionTest(q: Query): Version -> bool {
    v => VersionMatch(q, v)
  }

  /** The versions of a Component that match, in their original order. */
  function MatchingVersions(q: Query, vs: seq<Version>): seq<Version> {
    Filter(vs, VersionTest(q))
  }

  /** No key of the version list is present in the query, whatever its value. */
  predicate NoVersionKeys(q: Query) {
    forall k :: k in q ==> k !in VersionKeys
  }

  /** A Component is kept when a version matches, or when it matches on its own and the
      query has no version key. A matching version also makes the Component match, so
      the second case only matters when no version matches. */
  predicate Admitted(q: Query, c: Component) {
    |MatchingVersions(q, c.versions)| > 0 || (ComponentMatch(q, c) && NoVersionKeys(q))
  }

  /** The Component as emitted: its version list replaced by the matching versions. */
  function Trimmed(q: Query, c: Component): Component {
    c.(versions := MatchingVersions(q, c.versions))
  }

  /** `all.filter(item => item.type === "Component" && item.category_id === id)`. */
  function ChildComponents(es: seq<Record>, categoryId: string): (r: seq<Component>)
    ensures forall c :: c in r <==> ComponentRec(c) in es && c.categoryId == categoryId
    decreases |es|
  {
    if |es| == 0 then []
    else
      var init := es[..|es| - 1];
      var rest := ChildComponents(init, categoryId);
      var e := es[|es| - 1];
      assert es == init + [e];
      if e.ComponentRec? && e.component.categoryId == categoryId then rest + [e.component] else rest
  }

  /** `all.filter(item => item.type === "CustomerOptionSet" && item.category_id === id)`. */
  function ChildOptionSets(es: seq<Record>, categoryId: string): (r: seq<OptionSet>)
    ensures forall s :: s in r <==> OptionSetRec(s) in es && s.categoryId == categoryId
    decreases |es|
  {
    if |es| == 0 then []
    else
      var init := es[..|es| - 1];
      var rest := ChildOptionSets(init, categoryId);
      var e := es[|es| - 1];
      assert es == init + [e];
      if e.OptionSetRec? && e.optionSet.categoryId == categoryId then rest + [e.optionSet] else rest
  }

  function AdmittedTest(q: Query): Component -> bool {
    c => Admitted(q, c)
  }

  function Trimming(q: Query): Component -> Component {
    c => Trimmed(q, c)
  }

  function OptionSetTest(q: Query): OptionSet -> bool {
    s => OptionSetMatch(q, s)
  }

  /** The `components` attached to a Category: its admitted Components, trimmed,
      in input order. */
  function NestedComponents(all: seq<Record>, q: Query, categoryId: string): seq<Component> {
    Map(Filter(ChildComponents(all, categoryId), AdmittedTest(q)), Trimming(q))
  }

  /** The `customer_options` attached to a Category: its matching Customer Option Sets,
      in input order. */
  function NestedOptionSets(all: seq<Record>, q: Query, categoryId: string): seq<OptionSet> {
    Filter(ChildOptionSets(all, categoryId), OptionSetTest(q))
  }

  // ---------------------------------------------------------------- results

  /** One element of the result list. */
  datatype Hit =
    | CategoryHit(category: Category, components: seq<Component>, customerOptions: seq<OptionSet>)
    | ComponentHit(component: Component)
    | OptionSetHit(optionSet: OptionSet)

  /** `categoryName` or `categoryStatus` is present as a key. */
  predicate HasCategoryKeys(q: Query) {
    "categoryName" in q || "categoryStatus" in q
  }

  /** Some child-level key is present. */
  predicate HasChildKeys(q: Query) {
    exists k :: k in q && k in ChildKeys
  }

  /** Category keys only: every Category is then emitted, matching or not. */
  predicate CategoryOnly(q: Query) {
    HasCategoryKeys(q) && !HasChildKeys(q)
  }

  /** A truthy category parameter turns top-level Components and Option Sets off. */
  predicate TopLevelSuppressed(q: Query) {
    Given(q, "categoryName") || Given(q, "categoryStatus")
  }

  /** Some Category already in the results nests a Component with this id. */
  predicate NestsComponent(hits: seq<Hit>, id: string) {
    exists i, j :: 0 <= i < |hits| && hits[i].CategoryHit?
                   && 0 <= j < |hits[i].components| && hits[i].components[j].id == id
  }

  /** Some Category already in the results nests a Customer Option Set with this id. */
  predicate NestsOptionSet(hits: seq<Hit>, id: string) {
    exists i, j :: 0 <= i < |hits| && hits[i].CategoryHit?
                   && 0 <= j < |hits[i].customerOptions| && hits[i].customerOptions[j].id == id
  }

  /** What a Category contributes; it does not depend on the results so far. */
  function CategoryStep(all: seq<Record>, q: Query, c: Category): seq<Hit> {
    var components := NestedComponents(all, q, c.id);
    var options := NestedOptionSets(all, q, c.id);
    if CategoryMatch(q, c) || |components| > 0 || |options| > 0 || CategoryOnly(q)
    then [CategoryHit(c, components, options)]
    else []
  }

  /** What one input record contributes, given the results emitted before it. */
  function Step(all: seq<Record>, q: Query, e: Record, acc: seq<Hit>): (r: seq<Hit>)
    ensures |r| <= 1
  {
    match e
    case CategoryRec(c) => CategoryStep(all, q, c)
    case ComponentRec(c) =>
      if !TopLevelSuppressed(q) && Admitted(q, c) && !NestsComponent(acc, c.id)
      then [ComponentHit(Trimmed(q, c))] else []
    case OptionSetRec(s) =>
      if !TopLevelSuppressed(q) && OptionSetMatch(q, s) && !NestsOptionSet(acc, s.id)
      then [OptionSetHit(s)] else []
    case OtherRec(_) => []
  }

  /** The loop body of `filterData` for a fixed data file and query. */
  function Visit(all: seq<Record>, q: Query): (Record, seq<Hit>) -> seq<Hit> {
    (e, acc) => Step(all, q, e, acc)
  }

  /** The results after the first `n` records have been processed. */
  function FilterPrefix(all: seq<Record>, q: Query, n: nat): seq<Hit>
    requires n <= |all|
  {
    Scan(all, Visit(all, q), n)
  }

  /** `filterData(query)` over the records `all` (what `readData()` returns). */
  function FilterData(all: seq<Record>, q: Query): seq<Hit> {
    FilterPrefix(all, q, |all|)
  }
}

=== FILE: search_facts.dfy ===
/** What `filterData` guarantees about its result: where every hit comes from, which
    queries find nothing, how a matching version carries its Component and Category
    into the result, and when a Component is reported twice. */
module SearchFacts {
  import opened Wrappers
  import opened Text
  import opened Seqs
  import opened Records
  import opened Scans
  import opened Search

  // ---------------------------------------------------------------- the results grow monotonically

  /** A hit emitted after `m` records is still there after `n >= m` records. */
  lemma PrefixKeeps(all: seq<Record>, q: Query, m: nat, n: nat)
    requires m <= n <= |all|
    ensures forall h :: h in FilterPrefix(all, q, m) ==> h in FilterPrefix(all, q, n)
  {
    ScanKeeps(all, Visit(all, q), m, n);
  }

  /** One record contributes what `Step` says, appended to the results before it. */
  lemma PrefixStep(all: seq<Record>, q: Query, n: nat)
    requires n < |all|
    ensures FilterPrefix(all, q, n + 1)
            == FilterPrefix(all, q, n) + Step(all, q, all[n], FilterPrefix(all, q, n))
  {
  }

  // ---------------------------------------------------------------- why each hit is there

  /** The reason a record gives for emitting `h`. */
  ghost predicate Justified(all: seq<Record>, q: Query, h: Hit, e: Record) {
    match e
    case CategoryRec(c) =>
      && h == CategoryHit(c, NestedComponents(all, q, c.id), NestedOptionSets(all, q, c.id))
      && (CategoryMatch(q, c) || |h.components| > 0 || |h.customerOptions| > 0 || CategoryOnly(q))
    case ComponentRec(k) =>
      h == ComponentHit(Trimmed(q, k)) && !TopLevelSuppressed(q) && Admitted(q, k)
    case OptionSetRec(s) =>
      h == OptionSetHit(s) && !TopLevelSuppressed(q) && OptionSetMatch(q, s)
    case OtherRec(_) => false
  }

  lemma StepJustified(all: seq<Record>, q: Query, e: Record, acc: seq<Hit>, h: Hit)
    requires |Step(all, q, e, acc)| == 1 && Step(all, q, e, acc)[0] == h
    ensures Justified(all, q, h, e)
  {
  }

  lemma VisitAtMostOne(all: seq<Record>, q: Query)
    ensures AtMostOne(Visit(all, q))
  {
    forall e, acc ensures |Visit(all, q)(e, acc)| <= 1 {
      assert Visit(all, q)(e, acc) == Step(all, q, e, acc);
    }
  }

  /** The input position each hit of `filterData` comes from. */
  ghost function HitOrigins(all: seq<Record>, q: Query): seq<nat> {
    Origins(all, Visit(all, q), |all|)
  }

  /** Where the hits come from, with the step each origin took. */
  lemma TraceHits(all: seq<Record>, q: Query)
    ensures var r, idx := FilterData(all, q), HitOrigins(all, q);
            && |r| <= |all| && |idx| == |r|
            && (forall m :: 0 <= m < |idx| ==>
                  && idx[m] < |all|
                  && |Step(all, q, all[idx[m]], FilterPrefix(all, q, idx[m]))| == 1
                  && Step(all, q, all[idx[m]], FilterPrefix(all, q, idx[m]))[0] == r[m])
            && (forall m1, m2 :: 0 <= m1 < m2 < |idx| ==> idx[m1] < idx[m2])
  {
    VisitAtMostOne(all, q);
    ScanTrace(all, Visit(all, q), |all|);
    var r, idx := FilterData(all, q), HitOrigins(all, q);
    forall m | 0 <= m < |idx|
      ensures |Step(all, q, all[idx[m]], FilterPrefix(all, q, idx[m]))| == 1
              && Step(all, q, all[idx[m]], FilterPrefix(all, q, idx[m]))[0] == r[m]
    {
      assert Emits(all, Visit(all, q), idx[m], r[m]);
    }
  }

  /** Every hit of `filterData` is owed to one input record, hits appear in the order
      of their records, no record contributes twice, and each hit is exactly what its
      record's rule emits for the reason that rule names. In particular an element of
      an unknown type contributes nothing. */
  lemma ResultIsJustified(all: seq<Record>, q: Query)
    ensures var r, idx := FilterData(all, q), HitOrigins(all, q);
            && |r| <= |all| && |idx| == |r|
            && (forall m :: 0 <= m < |idx| ==> idx[m] < |all| && Justified(all, q, r[m], all[idx[m]]))
            && (forall m1, m2 :: 0 <= m1 < m2 < |idx| ==> idx[m1] < idx[m2])
  {
    TraceHits(all, q);
    var r, idx := FilterData(all, q), HitOrigins(all, q);
    forall m | 0 <= m < |idx|
      ensures Justified(all, q, r[m], all[idx[m]])
    {
      StepJustified(all, q, all[idx[m]], FilterPrefix(all, q, idx[m]), r[m]);
    }
  }

  // ---------------------------------------------------------------- the nested lists

  /** A Category nests exactly its own admitted Components, each with its version list
      cut down to the matching versions. */
  lemma NestedComponentsExact(all: seq<Record>, q: Query, id: string)
    ensures forall k :: ComponentRec(k) in all && k.categoryId == id && Admitted(q, k)
                        ==> Trimmed(q, k) in NestedComponents(all, q, id)
    ensures forall x :: x in NestedComponents(all, q, id) ==>
              exists k :: ComponentRec(k) in all && k.categoryId == id && Admitted(q, k) && x == Trimmed(q, k)
  {
    var kids := ChildComponents(all, id);
    var kept := Filter(kids, AdmittedTest(q));
    var out := NestedComponents(all, q, id);
    assert out == Map(kept, Trimming(q));
    forall k | ComponentRec(k) in all && k.categoryId == id && Admitted(q, k)
      ensures Trimmed(q, k) in out
    {
      assert k in kids;
      var i :| 0 <= i < |kids| && kids[i] == k;
      assert AdmittedTest(q)(kids[i]);
      assert k in kept;
      var j :| 0 <= j < |kept| && kept[j] == k;
      assert out[j] == Trimming(q)(kept[j]);
    }
    forall x | x in out
      ensures exists k :: ComponentRec(k) in all && k.categoryId == id && Admitted(q, k) && x == Trimmed(q, k)
    {
      var j :| 0 <= j < |out| && out[j] == x;
      var k := kept[j];
      assert k in kids && AdmittedTest(q)(k);
      assert x == Trimmed(q, k);
    }
  }

  /** A Category nests exactly its own matching Customer Option Sets, unchanged. */
  lemma NestedOptionSetsExact(all: seq<Record>, q: Query, id: string)
    ensures forall s :: s in NestedOptionSets(all, q, id) <==>
              OptionSetRec(s) in all && s.categoryId == id && OptionSetMatch(q, s)
  {
    var kids := ChildOptionSets(all, id);
    var out := NestedOptionSets(all, q, id);
    forall s | OptionSetRec(s) in all && s.categoryId == id && OptionSetMatch(q, s)
      ensures s in out
    {
      assert s in kids;
      var i :| 0 <= i < |kids| && kids[i] == s;
      assert OptionSetTest(q)(kids[i]);
    }
    forall s | s in out
      ensures OptionSetRec(s) in all && s.categoryId == id && OptionSetMatch(q, s)
    {
      var j :| 0 <= j < |out| && out[j] == s;
      assert OptionSetTest(q)(out[j]);
    }
  }

  /** The child filter keeps input order: the children of a concatenation are the
      children of each part, one after the other. */
  lemma {:induction false} ChildComponentsConcat(a: seq<Record>, b: seq<Record>, id: string)
    ensures ChildComponents(a + b, id) == ChildComponents(a, id) + ChildComponents(b, id)
    decreases |b|
  {
    if |b| == 0 {
      assert a + b == a;
    } else {
      var b' := b[..|b| - 1];
      assert (a + b)[..|a + b| - 1] == a + b';
      assert (a + b)[|a + b| - 1] == b[|b| - 1];
      ChildComponentsConcat(a, b', id);
    }
  }

  /** A single record contributes itself when it is a Component of the Category, else nothing. */
  lemma ChildComponentsSingle(e: Record, id: string)
    ensures ChildComponents([e], id) == if e.ComponentRec? && e.component.categoryId == id then [e.component] else []
  {
    assert [e][..0] == [];
  }

  lemma {:induction false} ChildOptionSetsConcat(a: seq<Record>, b: seq<Record>, id: string)
    ensures ChildOptionSets(a + b, id) == ChildOptionSets(a, id) + ChildOptionSets(b, id)
    decreases |b|
  {
    if |b| == 0 {
      assert a + b == a;
    } else {
      var b' := b[..|b| - 1];
      assert (a + b)[..|a + b| - 1] == a + b';
      assert (a + b)[|a + b| - 1] == b[|b| - 1];
      ChildOptionSetsConcat(a, b', id);
    }
  }

  lemma ChildOptionSetsSingle(e: Record, id: string)
    ensures ChildOptionSets([e], id) == if e.OptionSetRec? && e.optionSet.categoryId == id then [e.optionSet] else []
  {
    assert [e][..0] == [];
  }

  /** The nested Component list follows input order: the lists of two parts, concatenated. */
  lemma NestedComponentsConcat(a: seq<Record>, b: seq<Record>, q: Query, id: string)
    ensures NestedComponents(a + b, q, id) == NestedComponents(a, q, id) + NestedComponents(b, q, id)
  {
    ChildComponentsConcat(a, b, id);
    FilterConcat(ChildComponents(a, id), ChildComponents(b, id), AdmittedTest(q));
    MapConcat(Filter(ChildComponents(a, id), AdmittedTest(q)), Filter(ChildComponents(b, id), AdmittedTest(q)), Trimming(q));
  }

  /** One Component record is nested, trimmed, exactly when it belongs to the Category
      and is admitted. */
  lemma NestedComponentsSingle(k: Component, q: Query, id: string)
    ensures NestedComponents([ComponentRec(k)], q, id)
            == if k.categoryId == id && Admitted(q, k) then [Trimmed(q, k)] else []
  {
    ChildComponentsSingle(ComponentRec(k), id);
    if k.categoryId == id {
      FilterSingle(k, AdmittedTest(q));
      if Admitted(q, k) {
        MapSingle(k, Trimming(q));
      }
    }
  }

  /** The nested Option Set list follows input order. */
  lemma NestedOptionSetsConcat(a: seq<Record>, b: seq<Record>, q: Query, id: string)
    ensures NestedOptionSets(a + b, q, id) == NestedOptionSets(a, q, id) + NestedOptionSets(b, q, id)
  {
    ChildOptionSetsConcat(a, b, id);
    FilterConcat(ChildOptionSets(a, id), ChildOptionSets(b, id), OptionSetTest(q));
  }

  /** One Option Set record is nested exactly when it belongs to the Category and matches. */
  lemma NestedOptionSetsSingle(s: OptionSet, q: Query, id: string)
    ensures NestedOptionSets([OptionSetRec(s)], q, id)
            == if s.categoryId == id && OptionSetMatch(q, s) then [s] else []
  {
    ChildOptionSetsSingle(OptionSetRec(s), id);
    if s.categoryId == id {
      FilterSingle(s, OptionSetTest(q));
    }
  }

  /** The version list of an emitted Component holds exactly its matching versions,
      in their original order. */
  lemma MatchingVersionsExact(q: Query, a: seq<Version>, b: seq<Version>)
    ensures forall v :: v in MatchingVersions(q, a) <==> v in a && VersionMatch(q, v)
    ensures MatchingVersions(q, a + b) == MatchingVersions(q, a) + MatchingVersions(q, b)
  {
    var r := MatchingVersions(q, a);
    forall v | v in a && VersionMatch(q, v)
      ensures v in r
    {
      var i :| 0 <= i < |a| && a[i] == v;
      assert VersionTest(q)(a[i]);
    }
    forall v | v in r
      ensures v in a && VersionMatch(q, v)
    {
      var j :| 0 <= j < |r| && r[j] == v;
      assert VersionTest(q)(r[j]);
    }
    FilterConcat(a, b, VersionTest(q));
  }

  // ---------------------------------------------------------------- queries that find little or nothing

  /** No version, Component or Customer Option Set criterion can hold. */
  ghost predicate NoChildMatches(q: Query) {
    && (forall v :: !VersionMatch(q, v))
    && (forall k :: !ComponentMatch(q, k))
    && (forall s :: !OptionSetMatch(q, s))
  }

  lemma NoChildMatchesNestsNothing(all: seq<Record>, q: Query, id: string)
    requires NoChildMatches(q)
    ensures NestedComponents(all, q, id) == [] && NestedOptionSets(all, q, id) == []
    ensures forall k :: !Admitted(q, k)
  {
    forall k ensures !Admitted(q, k) {
      FilterNone(k.versions, VersionTest(q));
    }
    var kids := ChildComponents(all, id);
    FilterNone(kids, AdmittedTest(q));
    assert |NestedComponents(all, q, id)| == 0;
    FilterNone(ChildOptionSets(all, id), OptionSetTest(q));
  }

  lemma QuietStep(all: seq<Record>, q: Query, e: Record, acc: seq<Hit>)
    requires NoChildMatches(q) && !CategoryOnly(q)
    requires forall c :: !CategoryMatch(q, c)
    ensures |Step(all, q, e, acc)| == 0
  {
    match e
    case CategoryRec(c) => NoChildMatchesNestsNothing(all, q, c.id);
    case ComponentRec(k) => NoChildMatchesNestsNothing(all, q, k.categoryId);
    case OptionSetRec(_) =>
    case OtherRec(_) =>
  }

  /** Without a parameter value no criterion holds at any level. */
  lemma BlankQueryMatchesNothing(q: Query)
    requires forall k :: k in q ==> q[k] == ""
    ensures NoChildMatches(q) && forall c :: !CategoryMatch(q, c)
  {
    assert forall k :: !Given(q, k);
  }

  /** A query none of whose parameters has a value, and which has no category key,
      finds nothing; in particular `GET /search` with no parameters returns `[]`. */
  lemma NothingGivenFindsNothing(all: seq<Record>, q: Query)
    requires forall k :: k in q ==> q[k] == ""
    requires !HasCategoryKeys(q)
    ensures FilterData(all, q) == []
  {
    BlankQueryMatchesNothing(q);
    forall i | 0 <= i < |all| ensures AppendsNothing(all, Visit(all, q), i) {
      QuietStep(all, q, all[i], FilterPrefix(all, q, i));
    }
    ScanNone(all, Visit(all, q), |all|);
  }

  lemma EmptyQueryFindsNothing(all: seq<Record>)
    ensures FilterData(all, map[]) == []
  {
    NothingGivenFindsNothing(all, map[]);
  }

  /** What a record contributes under a category-only query. */
  function BareHit(e: Record): seq<Hit> {
    if e.CategoryRec? then [CategoryHit(e.category, [], [])] else []
  }

  /** Every Category, with empty `components` and `customer_options`, in input order. */
  function BareCategories(es: seq<Record>): (r: seq<Hit>)
    ensures |r| <= |es|
    ensures forall m :: 0 <= m < |r| ==> r[m].CategoryHit? && CategoryRec(r[m].category) in es
    decreases |es|
  {
    if |es| == 0 then []
    else
      var init := es[..|es| - 1];
      assert es == init + [es[|es| - 1]];
      BareCategories(init) + BareHit(es[|es| - 1])
  }

  lemma CategoryOnlyHasNoChildMatches(q: Query)
    requires CategoryOnly(q)
    ensures NoChildMatches(q)
  {
    assert forall k :: k in ChildKeys ==> k !in q;
  }

  lemma CategoryOnlyStep(all: seq<Record>, q: Query, e: Record, acc: seq<Hit>)
    requires CategoryOnly(q)
    ensures Step(all, q, e, acc) == BareHit(e)
  {
    CategoryOnlyHasNoChildMatches(q);
    match e
    case CategoryRec(c) => NoChildMatchesNestsNothing(all, q, c.id);
    case ComponentRec(k) => NoChildMatchesNestsNothing(all, q, k.categoryId);
    case OptionSetRec(_) =>
    case OtherRec(_) =>
  }

  function BareVisit(): (Record, seq<Hit>) -> seq<Hit> {
    (e, acc) => BareHit(e)
  }

  lemma {:induction false} BareScan(es: seq<Record>, n: nat)
    requires n <= |es|
    ensures Scan(es, BareVisit(), n) == BareCategories(es[..n])
  {
    if n > 0 {
      BareScan(es, n - 1);
      assert es[..n][..n - 1] == es[..n - 1];
    }
  }

  /** With only `categoryName` and/or `categoryStatus` as keys, every Category is
      returned with empty child lists, whether or not it matches, and nothing else. */
  lemma CategoryOnlyReturnsAllCategories(all: seq<Record>, q: Query)
    requires CategoryOnly(q)
    ensures FilterData(all, q) == BareCategories(all)
  {
    forall i | 0 <= i < |all| ensures AgreeAt(all, Visit(all, q), BareVisit(), i) {
      CategoryOnlyStep(all, q, all[i], FilterPrefix(all, q, i));
    }
    ScanAgree(all, Visit(all, q), BareVisit(), |all|);
    BareScan(all, |all|);
    assert all[..|all|] == all;
  }

  lemma SuppressedStep(all: seq<Record>, q: Query, e: Record, acc: seq<Hit>)
    requires TopLevelSuppressed(q)
    ensures forall m :: 0 <= m < |Step(all, q, e, acc)| ==> Step(all, q, e, acc)[m].CategoryHit?
  {
  }

  /** A non-empty `categoryName` or `categoryStatus` leaves only Categories in the result. */
  lemma SuppressedMeansOnlyCategories(all: seq<Record>, q: Query)
    requires TopLevelSuppressed(q)
    ensures forall m :: 0 <= m < |FilterData(all, q)| ==> FilterData(all, q)[m].CategoryHit?
  {
    var isCategory := (h: Hit) => h.CategoryHit?;
    forall i | 0 <= i < |all| ensures AppendsOnly(all, Visit(all, q), i, isCategory) {
      SuppressedStep(all, q, all[i], FilterPrefix(all, q, i));
    }
    ScanAll(all, Visit(all, q), |all|, isCategory);
  }

  /** A Component admitted on its own criteria, under a query with no version key and no
      keyword, is emitted with an empty version list. */
  lemma OwnCriteriaDropVersions(q: Query, k: Component)
    requires ComponentMatch(q, k) && NoVersionKeys(q) && !Given(q, "keyword")
    ensures Admitted(q, k) && Trimmed(q, k).versions == []
  {
    assert "version" !in q && "lifecycleStatus" !in q && "governanceStatus" !in q;
    assert "searchText" !in q && "standardsTag" !in q && "capability" !in q;
    assert "site" !in q && "zone" !in q && "segment" !in q && "country" !in q;
    assert "obsKey" !in q && "obsValue" !in q;
    FilterNone(k.versions, VersionTest(q));
  }

  // ---------------------------------------------------------------- the cascade from versions to categories

  /** The condition under which a Category is emitted. */
  predicate CategoryEmitted(all: seq<Record>, q: Query, c: Category) {
    CategoryMatch(q, c) || |NestedComponents(all, q, c.id)| > 0
    || |NestedOptionSets(all, q, c.id)| > 0 || CategoryOnly(q)
  }

  function CategoryResult(all: seq<Record>, q: Query, c: Category): Hit {
    CategoryHit(c, NestedComponents(all, q, c.id), NestedOptionSets(all, q, c.id))
  }

  lemma CategoryStepEmits(all: seq<Record>, q: Query, c: Category, acc: seq<Hit>)
    requires CategoryEmitted(all, q, c)
    ensures Step(all, q, CategoryRec(c), acc) == [CategoryResult(all, q, c)]
  {
  }

  /** A Category is emitted, carrying its nested lists, when it matches, when one of its
      lists is non-empty, or under a category-only query. */
  lemma CategoryIncluded(all: seq<Record>, q: Query, i: nat)
    requires i < |all| && all[i].CategoryRec?
    requires CategoryEmitted(all, q, all[i].category)
    ensures CategoryResult(all, q, all[i].category) in FilterPrefix(all, q, i + 1)
    ensures CategoryResult(all, q, all[i].category) in FilterData(all, q)
  {
    var c := all[i].category;
    var acc := FilterPrefix(all, q, i);
    CategoryStepEmits(all, q, c, acc);
    PrefixStep(all, q, i);
    assert FilterPrefix(all, q, i + 1) == acc + [CategoryResult(all, q, c)];
    PrefixKeeps(all, q, i + 1, |all|);
  }

  /** A version that matches carries its Component, trimmed to the matching versions,
      into its Category's `components`, and carries the Category into the result. */
  lemma MatchingVersionCascades(all: seq<Record>, q: Query, i: nat, k: Component, v: Version)
    requires i < |all| && all[i].CategoryRec?
    requires ComponentRec(k) in all && k.categoryId == all[i].category.id
    requires v in k.versions && VersionMatch(q, v)
    ensures CategoryResult(all, q, all[i].category) in FilterData(all, q)
    ensures Trimmed(q, k) in CategoryResult(all, q, all[i].category).components
    ensures v in Trimmed(q, k).versions
  {
    var c := all[i].category;
    MatchingVersionsExact(q, k.versions, []);
    assert v in MatchingVersions(q, k.versions);
    NestedComponentsExact(all, q, c.id);
    CategoryIncluded(all, q, i);
  }

  /** A matching Customer Option Set carries its Category into the result. */
  lemma MatchingOptionSetCascades(all: seq<Record>, q: Query, i: nat, s: OptionSet)
    requires i < |all| && all[i].CategoryRec?
    requires OptionSetRec(s) in all && s.categoryId == all[i].category.id && OptionSetMatch(q, s)
    ensures CategoryResult(all, q, all[i].category) in FilterData(all, q)
    ensures s in CategoryResult(all, q, all[i].category).customerOptions
  {
    NestedOptionSetsExact(all, q, all[i].category.id);
    CategoryIncluded(all, q, i);
  }

  // ---------------------------------------------------------------- top-level duplicates

  lemma NonCategoryStep(all: seq<Record>, q: Query, e: Record, acc: seq<Hit>)
    requires !e.CategoryRec?
    ensures forall m :: 0 <= m < |Step(all, q, e, acc)| ==> !Step(all, q, e, acc)[m].CategoryHit?
  {
  }

  /** Before the first Category, no Category is in the results. */
  lemma NoCategoryHitsBefore(all: seq<Record>, q: Query, n: nat)
    requires n <= |all|
    requires forall m :: 0 <= m < n ==> !all[m].CategoryRec?
    ensures forall m :: 0 <= m < |FilterPrefix(all, q, n)| ==> !FilterPrefix(all, q, n)[m].CategoryHit?
  {
    var notCategory := (h: Hit) => !h.CategoryHit?;
    forall i | 0 <= i < n ensures AppendsOnly(all, Visit(all, q), i, notCategory) {
      NonCategoryStep(all, q, all[i], FilterPrefix(all, q, i));
    }
    ScanAll(all, Visit(all, q), n, notCategory);
  }

  lemma ComponentStepEmits(all: seq<Record>, q: Query, k: Component, acc: seq<Hit>)
    requires !TopLevelSuppressed(q) && Admitted(q, k) && !NestsComponent(acc, k.id)
    ensures Step(all, q, ComponentRec(k), acc) == [ComponentHit(Trimmed(q, k))]
  {
  }

  /** An admitted Component no earlier Category nests is reported at top level. */
  lemma TopLevelComponentEmitted(all: seq<Record>, q: Query, j: nat)
    requires j < |all| && all[j].ComponentRec?
    requires Admitted(q, all[j].component) && !TopLevelSuppressed(q)
    requires !NestsComponent(FilterPrefix(all, q, j), all[j].component.id)
    ensures ComponentHit(Trimmed(q, all[j].component)) in FilterData(all, q)
  {
    var k := all[j].component;
    var acc := FilterPrefix(all, q, j);
    ComponentStepEmits(all, q, k, acc);
    PrefixStep(all, q, j);
    assert FilterPrefix(all, q, j + 1) == acc + [ComponentHit(Trimmed(q, k))];
    PrefixKeeps(all, q, j + 1, |all|);
  }

  lemma OptionSetStepEmits(all: seq<Record>, q: Query, s: OptionSet, acc: seq<Hit>)
    requires !TopLevelSuppressed(q) && OptionSetMatch(q, s) && !NestsOptionSet(acc, s.id)
    ensures Step(all, q, OptionSetRec(s), acc) == [OptionSetHit(s)]
  {
  }

  /** A matching Customer Option Set no earlier Category nests is reported at top level,
      unchanged. */
  lemma TopLevelOptionSetEmitted(all: seq<Record>, q: Query, j: nat)
    requires j < |all| && all[j].OptionSetRec?
    requires OptionSetMatch(q, all[j].optionSet) && !TopLevelSuppressed(q)
    requires !NestsOptionSet(FilterPrefix(all, q, j), all[j].optionSet.id)
    ensures OptionSetHit(all[j].optionSet) in FilterData(all, q)
  {
    var s := all[j].optionSet;
    var acc := FilterPrefix(all, q, j);
    OptionSetStepEmits(all, q, s, acc);
    PrefixStep(all, q, j);
    assert FilterPrefix(all, q, j + 1) == acc + [OptionSetHit(s)];
    PrefixKeeps(all, q, j + 1, |all|);
  }

  /** The de-duplication only looks at Categories emitted so far: a Component placed
      before every Category is reported at top level and again inside its Category. */
  lemma ChildBeforeCategoryAppearsTwice(all: seq<Record>, q: Query, j: nat, i: nat)
    requires j < i < |all| && all[j].ComponentRec? && all[i].CategoryRec?
    requires all[j].component.categoryId == all[i].category.id
    requires Admitted(q, all[j].component) && !TopLevelSuppressed(q)
    requires forall m :: 0 <= m < j ==> !all[m].CategoryRec?
    ensures ComponentHit(Trimmed(q, all[j].component)) in FilterData(all, q)
    ensures CategoryResult(all, q, all[i].category) in FilterData(all, q)
    ensures Trimmed(q, all[j].component) in CategoryResult(all, q, all[i].category).components
  {
    var k := all[j].component;
    var c := all[i].category;
    NoCategoryHitsBefore(all, q, j);
    TopLevelComponentEmitted(all, q, j);
    assert ComponentRec(k) in all;
    NestedComponentsExact(all, q, c.id);
    CategoryIncluded(all, q, i);
  }

  /** Component ids are unique in the data file. */
  ghost predicate UniqueComponentIds(all: seq<Record>) {
    forall a, b :: 0 <= a < b < |all| && all[a].ComponentRec? && all[b].ComponentRec?
                   ==> all[a].component.id != all[b].component.id
  }

  /** Customer Option Set ids are unique in the data file. */
  ghost predicate UniqueOptionSetIds(all: seq<Record>) {
    forall a, b :: 0 <= a < b < |all| && all[a].OptionSetRec? && all[b].OptionSetRec?
                   ==> all[a].optionSet.id != all[b].optionSet.id
  }

  /** A top-level Component hit comes from an admitted Component no earlier Category nests. */
  lemma ComponentHitOrigin(all: seq<Record>, q: Query, e: Record, acc: seq<Hit>, h: Hit)
    requires |Step(all, q, e, acc)| == 1 && Step(all, q, e, acc)[0] == h && h.ComponentHit?
    ensures e.ComponentRec? && h.component.id == e.component.id
    ensures Admitted(q, e.component) && !NestsComponent(acc, e.component.id)
  {
  }

  /** A top-level Option Set hit comes from a matching Option Set no earlier Category nests. */
  lemma OptionSetHitOrigin(all: seq<Record>, q: Query, e: Record, acc: seq<Hit>, h: Hit)
    requires |Step(all, q, e, acc)| == 1 && Step(all, q, e, acc)[0] == h && h.OptionSetHit?
    ensures e.OptionSetRec? && h.optionSet.id == e.optionSet.id
    ensures OptionSetMatch(q, e.optionSet) && !NestsOptionSet(acc, e.optionSet.id)
  {
  }

  /** An admitted Component of a Category is among that Category's nested Components. */
  lemma AdmittedIsNested(all: seq<Record>, q: Query, id: string, k: Component)
    requires ComponentRec(k) in all && k.categoryId == id && Admitted(q, k)
    ensures Trimmed(q, k) in NestedComponents(all, q, id)
  {
    NestedComponentsExact(all, q, id);
  }

  /** A matching Option Set of a Category is among that Category's nested Option Sets. */
  lemma MatchingIsNested(all: seq<Record>, q: Query, id: string, s: OptionSet)
    requires OptionSetRec(s) in all && s.categoryId == id && OptionSetMatch(q, s)
    ensures s in NestedOptionSets(all, q, id)
  {
    NestedOptionSetsExact(all, q, id);
  }

 /** An emitted Category's hit stays in every longer prefix of the results. */
  lemma CategoryHitInPrefix(all: seq<Record>, q: Query, i: nat, n: nat, c: Category)
    requires i < n <= |all| && all[i] == CategoryRec(c) && CategoryEmitted(all, q, c)
    ensures CategoryResult(all, q, c) in FilterPrefix(all, q, n)
  {
    CategoryStepEmits(all, q, c, FilterPrefix(all, q, i));
    ScanKeepsStep(all, Visit(all, q), i, n, CategoryResult(all, q, c));
  }

  /** Once its Category has been processed, an admitted Component is nested in the results. */
  lemma NestedAfterCategory(all: seq<Record>, q: Query, i: nat, n: nat, k: Component)
    requires i < n <= |all| && all[i].CategoryRec?
    requires ComponentRec(k) in all && k.categoryId == all[i].category.id && Admitted(q, k)
    ensures NestsComponent(FilterPrefix(all, q, n), k.id)
  {
    var c := all[i].category;
    AdmittedIsNested(all, q, c.id, k);
    CategoryHitInPrefix(all, q, i, n, c);
    ComponentInHitNested(FilterPrefix(all, q, n), CategoryResult(all, q, c), Trimmed(q, k));
  }

  /** A Component listed in a Category hit of the results is nested there. */
  lemma ComponentInHitNested(acc: seq<Hit>, h: Hit, x: Component)
    requires h in acc && h.CategoryHit? && x in h.components
    ensures NestsComponent(acc, x.id)
  {
    var a :| 0 <= a < |acc| && acc[a] == h;
    var b :| 0 <= b < |h.components| && h.components[b] == x;
    assert acc[a].components[b].id == x.id;
  }

  /** Once its Category has been processed, a matching Option Set is nested in the results. */
  lemma OptionSetNestedAfterCategory(all: seq<Record>, q: Query, i: nat, n: nat, s: OptionSet)
    requires i < n <= |all| && all[i].CategoryRec?
    requires OptionSetRec(s) in all && s.categoryId == all[i].category.id && OptionSetMatch(q, s)
    ensures NestsOptionSet(FilterPrefix(all, q, n), s.id)
  {
    var c := all[i].category;
    MatchingIsNested(all, q, c.id, s);
    CategoryHitInPrefix(all, q, i, n, c);
    OptionSetInHitNested(FilterPrefix(all, q, n), CategoryResult(all, q, c), s);
  }

  /** An Option Set listed in a Category hit of the results is nested there. */
  lemma OptionSetInHitNested(acc: seq<Hit>, h: Hit, x: OptionSet)
    requires h in acc && h.CategoryHit? && x in h.customerOptions
    ensures NestsOptionSet(acc, x.id)
  {
    var a :| 0 <= a < |acc| && acc[a] == h;
    var b :| 0 <= b < |h.customerOptions| && h.customerOptions[b] == x;
    assert acc[a].customerOptions[b].id == x.id;
  }

  /** With unique ids, a Component placed after its Category is never reported at top
      level: if it is admitted at all, the Category already nests it. */
  lemma ComponentAfterCategoryNotRepeated(all: seq<Record>, q: Query, i: nat, j: nat)
    requires i < j < |all| && all[i].CategoryRec? && all[j].ComponentRec?
    requires all[j].component.categoryId == all[i].category.id
    requires UniqueComponentIds(all)
    ensures forall m :: 0 <= m < |FilterData(all, q)| && FilterData(all, q)[m].ComponentHit?
                        ==> FilterData(all, q)[m].component.id != all[j].component.id
  {
    var r, idx := FilterData(all, q), HitOrigins(all, q);
    var k := all[j].component;
    TraceHits(all, q);
    forall m | 0 <= m < |r| && r[m].ComponentHit?
      ensures r[m].component.id != k.id
    {
      var o := idx[m];
      ComponentHitOrigin(all, q, all[o], FilterPrefix(all, q, o), r[m]);
      if r[m].component.id == k.id {
        assert o == j;
        assert ComponentRec(k) in all;
        NestedAfterCategory(all, q, i, j, k);
        assert false;
      }
    }
  }

  /** With unique ids, a Customer Option Set placed after its Category is never
      reported at top level. */
  lemma OptionSetAfterCategoryNotRepeated(all: seq<Record>, q: Query, i: nat, j: nat)
    requires i < j < |all| && all[i].CategoryRec? && all[j].OptionSetRec?
    requires all[j].optionSet.categoryId == all[i].category.id
    requires UniqueOptionSetIds(all)
    ensures forall m :: 0 <= m < |FilterData(all, q)| && FilterData(all, q)[m].OptionSetHit?
                        ==> FilterData(all, q)[m].optionSet.id != all[j].optionSet.id
  {
    var r, idx := FilterData(all, q), HitOrigins(all, q);
    var s := all[j].optionSet;
    TraceHits(all, q);
    forall m | 0 <= m < |r| && r[m].OptionSetHit?
      ensures r[m].optionSet.id != s.id
    {
      var o := idx[m];
      OptionSetHitOrigin(all, q, all[o], FilterPrefix(all, q, o), r[m]);
      if r[m].optionSet.id == s.id {
        assert o == j;
        assert OptionSetRec(s) in all;
        OptionSetNestedAfterCategory(all, q, i, j, s);
        assert false;
      }
    }
  }

  // ---------------------------------------------------------------- location and observability criteria

  /** An example of the location parts having to fit one deployment location: a
      version whose site fits one location and whose zone fits another does not match
      `site=a&zone=b`. */
  lemma SplitLocationExample(v: Version)
    requires v.deploymentLocations == [Location("a", "", "", ""), Location("", "b", "", "")]
    ensures var q := map["site" := "a", "zone" := "b"];
            && Includes(q, "site", v.deploymentLocations[0].site)
            && Includes(q, "zone", v.deploymentLocations[1].zone)
            && !LocationCriterion(q, v)
  {
    var q := map["site" := "a", "zone" := "b"];
    assert Lower("a") == "a" && Lower("b") == "b" && Lower("") == "";
    assert OccursAt("a", "a", 0) && OccursAt("b", "b", 0);
    assert !LocationFits(q, v.deploymentLocations[0]);
    assert !LocationFits(q, v.deploymentLocations[1]);
  }

  /** The same example for `obsKey` and `obsValue`, which must fit one observability link. */
  lemma SplitLinkExample(v: Version)
    requires v.observabilityLinks == [Kvp("k", ""), Kvp("", "v")]
    ensures var q := map["obsKey" := "k", "obsValue" := "v"];
            && Includes(q, "obsKey", v.observabilityLinks[0].key)
            && Includes(q, "obsValue", v.observabilityLinks[1].value)
            && !ObservabilityCriterion(q, v)
  {
    var q := map["obsKey" := "k", "obsValue" := "v"];
    assert Lower("k") == "k" && Lower("v") == "v" && Lower("") == "";
    assert OccursAt("k", "k", 0) && OccursAt("v", "v", 0);
    assert !LinkFits(q, v.observabilityLinks[0]);
    assert !LinkFits(q, v.observabilityLinks[1]);
  }
}

=== FILE: seqs.dfy ===
/** Order-preserving sequence operations: the model's counterparts of JavaScript's
    `Array.prototype.filter`, `some`, `map` and `findIndex`. */
module Seqs {
  import opened Wrappers

  /** `s.filter(p)`: the elements of `s` satisfying `p`, in their original order. */
  function Filter<T>(s: seq<T>, p: T -> bool): (r: seq<T>)
    ensures |r| <= |s|
    ensures forall i :: 0 <= i < |r| ==> r[i] in s && p(r[i])
    ensures forall i :: 0 <= i < |s| && p(s[i]) ==> s[i] in r
    decreases |s|
  {
    if |s| == 0 then []
    else
      var rest := Filter(s[..|s| - 1], p);
      assert s == s[..|s| - 1] + [s[|s| - 1]];
      if p(s[|s| - 1]) then rest + [s[|s| - 1]] else rest
  }

  /** A one-element list keeps its element exactly when it passes. */
  lemma FilterSingle<T>(x: T, p: T -> bool)
    ensures Filter([x], p) == if p(x) then [x] else []
  {
    assert [x][..0] == [];
  }

  /** Filtering distributes over concatenation, so the kept elements stay in input order. */
  lemma {:induction false} FilterConcat<T>(a: seq<T>, b: seq<T>, p: T -> bool)
    ensures Filter(a + b, p) == Filter(a, p) + Filter(b, p)
    decreases |b|
  {
    if |b| == 0 {
      assert a + b == a;
    } else {
      var b' := b[..|b| - 1];
      assert (a + b)[..|a + b| - 1] == a + b';
      assert (a + b)[|a + b| - 1] == b[|b| - 1];
      FilterConcat(a, b', p);
    }
  }

  /** Filtering a sequence all of whose elements pass returns it unchanged. */
  lemma {:induction false} FilterKeepsAll<T>(s: seq<T>, p: T -> bool)
    requires forall i :: 0 <= i < |s| ==> p(s[i])
    ensures Filter(s, p) == s
    decreases |s|
  {
    if |s| > 0 {
      FilterKeepsAll(s[..|s| - 1], p);
      assert s == s[..|s| - 1] + [s[|s| - 1]];
    }
  }

  /** Filtering twice is filtering once by the conjunction. */
  lemma {:induction false} FilterFilter<T>(s: seq<T>, p: T -> bool, q: T -> bool, both: T -> bool)
    requires forall x :: both(x) == (p(x) && q(x))
    ensures Filter(Filter(s, p), q) == Filter(s, both)
    decreases |s|
  {
    if |s| > 0 {
      var init, last := s[..|s| - 1], s[|s| - 1];
      FilterFilter(init, p, q, both);
      var once := Filter(init, p);
      if p(last) {
        assert Filter(s, p) == once + [last];
        assert (once + [last])[..|once + [last]| - 1] == once;
      }
    }
  }

  /** Filtering a sequence none of whose elements passes gives the empty sequence. */
  lemma {:induction false} FilterNone<T>(s: seq<T>, p: T -> bool)
    requires forall i :: 0 <= i < |s| ==> !p(s[i])
    ensures Filter(s, p) == []
    decreases |s|
  {
    if |s| > 0 {
      FilterNone(s[..|s| - 1], p);
    }
  }

  /** The filtered sequence is strictly shorter exactly when some element fails `p`. */
  lemma {:induction false} FilterShrinks<T>(s: seq<T>, p: T -> bool)
    ensures |Filter(s, p)| < |s| <==> exists i :: 0 <= i < |s| && !p(s[i])
    decreases |s|
  {
    if |s| > 0 {
      var init := s[..|s| - 1];
      FilterShrinks(init, p);
      if exists i :: 0 <= i < |init| && !p(init[i]) {
        var i :| 0 <= i < |init| && !p(init[i]);
        assert s[i] == init[i];
      }
      if exists i :: 0 <= i < |s| && !p(s[i]) {
        var i :| 0 <= i < |s| && !p(s[i]);
        if i < |init| {
          assert init[i] == s[i];
        }
      }
    }
  }

  /** `s.some(p)`. */
  function Any<T>(s: seq<T>, p: T -> bool): (r: bool)
    ensures r <==> exists i :: 0 <= i < |s| && p(s[i])
    decreases |s|
  {
    if |s| == 0 then false
    else if p(s[|s| - 1]) then true
    else
      var init := s[..|s| - 1];
      assert forall i :: 0 <= i < |init| ==> init[i] == s[i];
      Any(init, p)
  }

  /** `s.map(f)`. */
  function Map<T, U>(s: seq<T>, f: T -> U): (r: seq<U>)
    ensures |r| == |s|
    ensures forall i :: 0 <= i < |s| ==> r[i] == f(s[i])
  {
    seq(|s|, i requires 0 <= i < |s| => f(s[i]))
  }

  /** A one-element list maps to the image of its element. */
  lemma MapSingle<T, U>(x: T, f: T -> U)
    ensures Map([x], f) == [f(x)]
  {
  }

  /** Mapping distributes over concatenation: the images keep the order of their sources. */
  lemma MapConcat<T, U>(a: seq<T>, b: seq<T>, f: T -> U)
    ensures Map(a + b, f) == Map(a, f) + Map(b, f)
  {
    var l, r := Map(a + b, f), Map(a, f) + Map(b, f);
    forall i | 0 <= i < |l| ensures l[i] == r[i] {
      if i < |a| {
        assert (a + b)[i] == a[i];
      } else {
        assert (a + b)[i] == b[i - |a|];
      }
    }
  }

  /** `s.findIndex(p)`, with `None` for JavaScript's `-1`. */
  function FirstWhere<T>(s: seq<T>, p: T -> bool): (r: Option<nat>)
    ensures r.None? <==> forall i :: 0 <= i < |s| ==> !p(s[i])
    ensures r.Some? ==> r.value < |s| && p(s[r.value])
                        && forall i :: 0 <= i < r.value ==> !p(s[i])
    decreases |s|
  {
    if |s| == 0 then None
    else if p(s[0]) then Some(0)
    else
      match FirstWhere(s[1..], p)
      case None => None
      case Some(k) => Some(k + 1)
  }
}

=== FILE: text.dfy ===
/** String primitives used by the search and the form parsers: ASCII lower-casing
    (`toLowerCase`), substring search (`includes`), whitespace trimming (`trim`),
    splitting on one character (`split`) and joining with a separator (`join`). */
module Text {

  // ---------------------------------------------------------------- case

  function LowerChar(c: char): char {
    if 'A' <= c <= 'Z' then (c as int + 32) as char else c
  }

  predicate IsUpper(c: char) {
    'A' <= c <= 'Z'
  }

  /** ASCII `toLowerCase`: every upper-case letter becomes lower-case, nothing else changes. */
  function Lower(s: string): (r: string)
    ensures |r| == |s|
    ensures forall i :: 0 <= i < |r| ==> !IsUpper(r[i])
    ensures forall i :: 0 <= i < |s| && !IsUpper(s[i]) ==> r[i] == s[i]
    ensures forall i :: 0 <= i < |s| && IsUpper(s[i]) ==> r[i] as int == s[i] as int + 32
  {
    seq(|s|, i requires 0 <= i < |s| => LowerChar(s[i]))
  }

  /** Lower-casing twice is lower-casing once. */
  lemma LowerIdempotent(s: string)
    ensures Lower(Lower(s)) == Lower(s)
  {
    var r := Lower(s);
    assert forall i :: 0 <= i < |r| ==> Lower(r)[i] == r[i];
  }

  /** Lower-casing works character by character, so it distributes over concatenation. */
  lemma LowerConcat(a: string, b: string)
    ensures Lower(a + b) == Lower(a) + Lower(b)
  {
    var l, r := Lower(a + b), Lower(a) + Lower(b);
    forall i | 0 <= i < |l| ensures l[i] == r[i] {
      if i < |a| {
        assert (a + b)[i] == a[i];
      } else {
        assert (a + b)[i] == b[i - |a|];
      }
    }
  }

  // ---------------------------------------------------------------- search

  /** `needle` occurs in `hay` starting at position `i`. */
  ghost predicate OccursAt(hay: string, needle: string, i: int) {
    0 <= i && i + |needle| <= |hay| && hay[i..i + |needle|] == needle
  }

  /** `hay.includes(needle)`, scanning left to right. */
  function Contains(hay: string, needle: string): (r: bool)
    ensures r <==> exists i :: OccursAt(hay, needle, i)
    decreases |hay|
  {
    if |needle| > |hay| then false
    else if hay[..|needle|] == needle then
      assert OccursAt(hay, needle, 0);
      true
    else
      var rest := Contains(hay[1..], needle);
      assert forall i :: OccursAt(hay[1..], needle, i) <==> OccursAt(hay, needle, i + 1) by {
        forall i ensures OccursAt(hay[1..], needle, i) <==> OccursAt(hay, needle, i + 1) {
          if 0 <= i && i + |needle| <= |hay| - 1 {
            assert hay[1..][i..i + |needle|] == hay[i + 1..i + 1 + |needle|];
          }
        }
      }
      assert !OccursAt(hay, needle, 0);
      assert (exists i :: OccursAt(hay, needle, i)) ==> exists j :: OccursAt(hay[1..], needle, j) by {
        if exists i :: OccursAt(hay, needle, i) {
          var i :| OccursAt(hay, needle, i);
          assert OccursAt(hay[1..], needle, i - 1);
        }
      }
      rest
  }

  /** Case-insensitive `includes`: both sides are lower-cased first. */
  predicate ContainsIgnoringCase(hay: string, needle: string) {
    Contains(Lower(hay), Lower(needle))
  }

  /** Case-insensitive `===` on strings. */
  predicate EqualsIgnoringCase(a: string, b: string) {
    Lower(a) == Lower(b)
  }

  // ---------------------------------------------------------------- trim

  /** The ASCII whitespace `trim` removes. */
  predicate IsSpace(c: char) {
    c == ' ' || c == '\t' || c == '\n' || c == '\r' || c == '\U{B}' || c == '\U{C}'
  }

  /** No whitespace at either end. */
  predicate IsTrimmed(s: string) {
    |s| == 0 || (!IsSpace(s[0]) && !IsSpace(s[|s| - 1]))
  }

  function TrimStart(s: string): (r: string)
    ensures |r| <= |s| && r == s[|s| - |r|..]
    ensures forall i :: 0 <= i < |s| - |r| ==> IsSpace(s[i])
    ensures |r| > 0 ==> !IsSpace(r[0])
    ensures (|s| == 0 || !IsSpace(s[0])) ==> r == s
    decreases |s|
  {
    if |s| > 0 && IsSpace(s[0]) then
      var r := TrimStart(s[1..]);
      assert forall i :: 1 <= i < |s| - |r| ==> s[i] == s[1..][i - 1];
      r
    else s
  }

  function TrimEnd(s: string): (r: string)
    ensures |r| <= |s| && r == s[..|r|]
    ensures forall i :: |r| <= i < |s| ==> IsSpace(s[i])
    ensures |r| > 0 ==> !IsSpace(r[|r| - 1])
    ensures (|s| == 0 || !IsSpace(s[|s| - 1])) ==> r == s
    decreases |s|
  {
    if |s| > 0 && IsSpace(s[|s| - 1]) then TrimEnd(s[..|s| - 1]) else s
  }

  /** `s.trim()`: the longest infix of `s` with no whitespace at either end. */
  function Trim(s: string): (r: string)
    ensures IsTrimmed(r)
    ensures exists a, b :: 0 <= a <= b <= |s| && r == s[a..b] && TrimmedAway(s, a, b)
    ensures IsTrimmed(s) ==> r == s
  {
    var t := TrimStart(s);
    var r := TrimEnd(t);
    TrimBothEnds(s, t, r);
    TrimmedInfix(s, t, r);
    TrimmedOutside(s, t, r);
    r
  }

  /** Trimming the end of the start-trimmed string leaves no whitespace at either end,
      and leaves an already trimmed string alone. */
  lemma TrimBothEnds(s: string, t: string, r: string)
    requires t == TrimStart(s) && r == TrimEnd(t)
    ensures IsTrimmed(r)
    ensures IsTrimmed(s) ==> r == s
  {
    if |r| > 0 {
      assert r[0] == t[0];
    }
  }

  /** A prefix `r` of a suffix `t` of `s` is the infix of `s` that starts where `t` does. */
  lemma TrimmedInfix(s: string, t: string, r: string)
    requires |t| <= |s| && t == s[|s| - |t|..] && |r| <= |t| && r == t[..|r|]
    ensures r == s[|s| - |t|..|s| - |t| + |r|]
  {
    var a := |s| - |t|;
    forall k | 0 <= k < |r| ensures r[k] == s[a + k] {
      assert r[k] == t[k] && t[k] == s[a + k];
    }
    assert r == s[a..a + |r|];
  }

  /** What lies outside that infix is whitespace. */
  lemma TrimmedOutside(s: string, t: string, r: string)
    requires t == TrimStart(s) && r == TrimEnd(t)
    ensures |s| - |t| + |r| <= |s| && TrimmedAway(s, |s| - |t|, |s| - |t| + |r|)
  {
    var a := |s| - |t|;
    assert t == s[a..];
    forall i | a + |r| <= i < |s| ensures IsSpace(s[i]) {
      assert s[i] == t[i - a];
    }
  }

  /** Everything of `s` outside `[a, b)` is whitespace. */
  predicate TrimmedAway(s: string, a: nat, b: nat)
    requires a <= b <= |s|
  {
    (forall i :: 0 <= i < a ==> IsSpace(s[i])) && (forall i :: b <= i < |s| ==> IsSpace(s[i]))
  }

  // ---------------------------------------------------------------- split and join

  /** `s.split(sep)` for a one-character separator; like JavaScript it never
      returns an empty list (`"".split(",")` is `[""]`). */
  function Split(s: string, sep: char): (r: seq<string>)
    ensures |r| >= 1
    ensures forall i :: 0 <= i < |r| ==> sep !in r[i]
    decreases |s|
  {
    if |s| == 0 then [""]
    else
      var t := Split(s[1..], sep);
      if s[0] == sep then [""] + t
      else [[s[0]] + t[0]] + t[1..]
  }

  /** `xs.join(sep)`. */
  function Join(xs: seq<string>, sep: string): string
    decreases |xs|
  {
    if |xs| == 0 then ""
    else if |xs| == 1 then xs[0]
    else xs[0] + sep + Join(xs[1..], sep)
  }

  /** Joining the pieces of a split with the separator gives back the string. */
  lemma {:induction false} JoinSplit(s: string, sep: char)
    ensures Join(Split(s, sep), [sep]) == s
    decreases |s|
  {
    if |s| > 0 {
      var t := Split(s[1..], sep);
      JoinSplit(s[1..], sep);
      if s[0] == sep {
        assert s == [sep] + s[1..];
      } else if |t| == 1 {
        assert s == [s[0]] + s[1..];
      } else {
        assert Join(t, [sep]) == t[0] + [sep] + Join(t[1..], [sep]);
        assert s == [s[0]] + s[1..];
      }
    }
  }

  lemma {:induction false} SplitPiece(a: string, sep: char)
    requires sep !in a
    ensures Split(a, sep) == [a]
    decreases |a|
  {
    if |a| > 0 {
      SplitPiece(a[1..], sep);
      assert a == [a[0]] + a[1..];
    }
  }

  lemma {:induction false} SplitAfterPiece(a: string, sep: char, b: string)
    requires sep !in a
    ensures Split(a + [sep] + b, sep) == [a] + Split(b, sep)
    decreases |a|
  {
    var s := a + [sep] + b;
    if |a| == 0 {
      assert s[1..] == b;
    } else {
      assert s[1..] == a[1..] + [sep] + b;
      SplitAfterPiece(a[1..], sep, b);
      assert a == [a[0]] + a[1..];
    }
  }

  /** Splitting a join of separator-free pieces gives back the pieces. */
  lemma {:induction false} SplitJoin(xs: seq<string>, sep: char)
    requires |xs| >= 1
    requires forall i :: 0 <= i < |xs| ==> sep !in xs[i]
    ensures Split(Join(xs, [sep]), sep) == xs
    decreases |xs|
  {
    if |xs| == 1 {
      SplitPiece(xs[0], sep);
    } else {
      SplitJoin(xs[1..], sep);
      SplitAfterPiece(xs[0], sep, Join(xs[1..], [sep]));
      assert xs == [xs[0]] + xs[1..];
    }
  }

  // ---------------------------------------------------------------- numbers as text

  predicate IsDigit(c: char) {
    '0' <= c <= '9'
  }

  predicate AllDigits(s: string) {
    forall i :: 0 <= i < |s| ==> IsDigit(s[i])
  }

  function DigitChar(d: nat): char
    requires d < 10
  {
    ('0' as int + d) as char
  }

  /** `n.toString()` for a non-negative integer: its decimal digits, most significant first. */
  function DecimalString(n: nat): (r: string)
    ensures |r| >= 1
    ensures forall i :: 0 <= i < |r| ==> IsDigit(r[i])
    ensures |r| > 1 ==> r[0] != '0'
  {
    if n < 10 then [DigitChar(n)] else DecimalString(n / 10) + [DigitChar(n % 10)]
  }

  /** Appending a digit to a number appends its character to the decimal string. */
  lemma DecimalStringDigit(a: nat, d: nat)
    requires a >= 1 && d < 10
    ensures DecimalString(10 * a + d) == DecimalString(a) + [DigitChar(d)]
  {
    assert (10 * a + d) / 10 == a && (10 * a + d) % 10 == d;
  }

  /** The number a string of decimal digits denotes. */
  function DecimalValue(s: string): nat
    requires forall i :: 0 <= i < |s| ==> IsDigit(s[i])
    decreases |s|
  {
    if |s| == 0 then 0
    else
      assert IsDigit(s[|s| - 1]);
      DecimalValue(s[..|s| - 1]) * 10 + (s[|s| - 1] as int - '0' as int)
  }

  /** Reading back the digits of `n` gives `n`. */
  lemma {:induction false} DecimalRoundTrip(n: nat)
    ensures DecimalValue(DecimalString(n)) == n
  {
    var s := DecimalString(n);
    if n >= 10 {
      DecimalRoundTrip(n / 10);
      assert s[..|s| - 1] == DecimalString(n / 10);
    }
  }

  /** `s.slice(-k)`: the last `k` characters, or all of `s` when it is shorter. */
  function TakeLast(s: string, k: nat): (r: string)
    ensures |r| == if |s| < k then |s| else k
    ensures r == s[|s| - |r|..]
  {
    if |s| <= k then s else s[|s| - k..]
  }
}

=== FILE: wrappers.dfy ===
/** Optional values and success/failure results used throughout the model. */
module Wrappers {

  /** A value that may be missing (JavaScript `undefined`). */
  datatype Option<+T> = None | Some(value: T)

  /** The outcome of a handler: the new data on success, or the reason it was refused. */
  datatype Result<+R, +E> = Success(value: R) | Failure(error: E)
}
